=== FILE: README.md ===
# React Native image cropper — a Dafny model of its geometry and state machines

This project models the core of `react-native-img-cropper`, a React Native
component that shows a photo in a square viewport. The user scrolls, zooms,
rotates and double-taps the photo. The component reports which rectangle of
the source image is visible, so that a native cropper can cut it out.

The model covers:

- **Cover fit** (module `CoverFit`). When an editor mounts, it scales the image
  to the smallest uniform size that still fills the crop box. It then centres
  the overflow and derives the zoom bounds. `src/ImageEditor.js` and the inner
  `ImageCropper` class of `ImageCropper.js` share this code.
- **Aspect-ratio fit** (module `AspectFit`). The pan prototypes (`App.js` and
  `src/ImageCropper.android.js`) choose one scale factor by comparing aspect
  ratios, and also compute a maximum pinch scale.
- **Crop transform** (module `CropTransform`). `updateTransformData` is a linear
  map from the scroll view's content offset and size to a crop rectangle in
  source-image pixels. The model states its inverse and proves both round
  trips. It proves that a view at rest crops inside the image, and that the
  first report is centred.
- **Rotation** (module `Rotation`). `rotateImage` accepts a target only when it
  is a whole number of quarter turns, and normalises it with
  `((v / 90) % 4) * 90`. JavaScript's `%` truncates, and the model writes that
  out (`JsRem`).
- **Double tap** (module `DoubleTap`). Both editors keep a single `lastTapTime`
  slot with a 300 ms window.
- **The editor of `src/ImageEditor.js`** (module `ImageEditor`). Its state
  machine covers mount, scroll, rotate, reset and double tap. Each handler is
  a step function that returns the next state, the crop data reported, any
  programmatic zoom, and the target of any rotation animation.
- **The inner cropper of `ImageCropper.js`** (module `CropperView`).
- **The wrappers** (modules `CropperShell` and `SquareCropper`). These are
  `src/ImageCropper.ios.js` and the `SquareImageCropper` class of
  `ImageCropper.js`. They cover:
  - source comparison;
  - the reset on a source change, with its key counter;
  - image-size resolution;
  - the square layout measurement;
  - the editor's readiness gate;
  - `crop`, `reset` and `rotate`.
- **The pan prototypes** (modules `AndroidPan` and `AppPan`). `AndroidPan`
  clamps each edge to `[-max, 0]` and handles pinch scaling. `AppPan` is an
  unclamped drag.

Sizes and positions are exact `real`s. The program computes them as doubles,
but they involve only division and multiplication, so the exact model states
what the code intends.

JavaScript truthiness is modelled explicitly:

- missing values are `Option` values;
- `NumberTruthy` treats a missing value and `0` as false;
- `StringTruthy` treats a missing value and `""` as false.

React's asynchronous pieces are single input events: a `setState` callback,
the end of an animation, a scroll settling, a native callback. The
`setState` re-render that mounts or unmounts the editor is `CropperShell.Render`.
The handlers that change the image, its size or the measured viewport call
it. The others (`CropSucceeded`, `CropFailed`, `Reset`) leave those three
inputs alone, and under the wrapper's consistency a re-render changes nothing
(`CropperShell.RenderIdleUnderInv`), so they return their state without one.

## How the variants differ

Each file is modelled as written. The variants are not merged, and lemmas
pin down where they differ:

- **Explicit rotation 0.** `src/ImageEditor.js` reports an explicit 0 as
  given. `ImageCropper.js` writes `rotation || this.state.rotation`, so an
  explicit 0 falls back to the state rotation
  (`CropperView.ExplicitZeroFallsBack`).
- **Normalisation.** `src/ImageEditor.js` normalises each rotation, so four
  default turns return to 0 (`ImageEditor.FourRotationsFromMount`).
  `ImageCropper.js` only adds 90, so the fourth turn reports 360
  (`CropperView.FourRotationsReport360`).
- **The crop reported after a rotation.** `src/ImageEditor.js` reuses the
  last scroll state (`ImageEditor.RotationKeepsScrolledCrop`).
  `ImageCropper.js` reports the mount-time centred crop, whatever has been
  scrolled since (`CropperView.RotationForgetsScroll`).
- **Negative targets.** In `src/ImageEditor.js` a negative rotation target
  keeps its sign: -90 and -450 both normalise to -90, not 270
  (`Rotation.NegativeTargetKeepsSign`).
- **The App.js image style.** The style centres the image. With the module's
  constants, the mount-time `setNativeProps` then writes `left: 0, top: 0`
  over that style (`AppPan.MountOverridesCentring`).

A worked example of the fit (`CropTransform.SquareBoxScenario`): a 2352×1882
photo in a 300×300 box. The first report is the square of side 1882 whose
left edge is 235 pixels in from the image's left edge. With the height ratio
rounded to 6.27 before it is used, these would come out as 235.5 and 1881,
but the code does not round, and in exact arithmetic they are exactly 235
and 1882.

## Model

| member | source | states |
|---|---|---|
| CoverFit.ScaledSize | src/ImageEditor.js:67-82 | the scaled image covers the viewport; the binding side (height when horizontal, width otherwise) equals the viewport side; the aspect ratio of the image is kept |
| CoverFit.MaximumZoomIsNative | src/ImageEditor.js:94-98 | the maximum zoom equals the smaller of the two size ratios, and scaling the fitted image by it gives back the image's native size |
| CoverFit.Cover | src/ImageEditor.js:64-104 | `horizontal` iff widthRatio > heightRatio; cover, binding side and uniform scale; the content offset is non-negative, zero on the non-overflowing axis, and centres the overflow (`2*offset + size == scaled`); minimum zoom 1, maximum zoom min(widthRatio, heightRatio) |
| CropTransform.ToImage | src/ImageEditor.js:191-210 | each crop coordinate is the image side times the display coordinate over the scaled side (offset and size, per axis) |
| CropTransform.DisplayRoundTrip | src/ImageEditor.js:191-210 | mapping a view to image pixels and back gives the same offset and crop box |
| CropTransform.ImageRoundTrip | src/ImageEditor.js:191-210 | mapping a crop rectangle to the display and back gives the same rectangle |
| CropTransform.InsideAtRest | src/ImageEditor.js:191-210 | a view whose crop box lies within the scaled image reports a crop with non-negative offset that lies within the source image |
| CropTransform.InitialRegion | src/ImageEditor.js:84-110 | the first report is centred in the image (`2*offset + size == imageSize`), lies inside it, and its size is the viewport magnified by the maximum zoom |
| CropTransform.SquareBoxScenario | src/ImageEditor.js:64-110 | 2352×1882 in a 300×300 box is horizontal and first reports offset (235, 0), size 1882×1882 |
| Rotation.JsRem | src/ImageEditor.js:164 | JavaScript `%`: dividend = divisor × truncated quotient + remainder, the remainder takes the dividend's sign and is smaller than the divisor |
| Rotation.Normalize | src/ImageEditor.js:164 | the normalised angle is a multiple of 90 strictly between -360 and 360 and differs from the input by a multiple of 360; it lies in {0, 90, 180, 270} for a non-negative input and is at most 0 for a non-positive one (the truncating remainder keeps the sign); inputs in (-360, 360) are unchanged |
| Rotation.PlanRotation | src/ImageEditor.js:153-189 | a target is accepted iff present and a whole number of quarter turns (0 included); otherwise the new angle is rotation + 90; the stored angle is `Normalize` of the new value; the animation heads for the normalised angle only for a truthy accepted target; a non-positive new value gives a non-positive stored angle |
| Rotation.DefaultRotationCycles | src/ImageEditor.js:153-164 | default rotations from a normalised angle step by 90 modulo 360 and come back after four |
| Rotation.ResetTargetIsZero | src/ImageEditor.js:149-164 | a target of 0 is accepted and stores and animates to 0 |
| Rotation.InvalidTargetIgnored | src/ImageEditor.js:154-162 | a 45-degree target is rejected and the editor turns 90 further |
| Rotation.NegativeTargetKeepsSign | src/ImageEditor.js:164 | targets -90 and -450 both normalise to -90 |
| DoubleTap.Detect | src/ImageEditor.js:113-123 | the zoom is reset iff a non-zero previous tap exists and this tap is at most 300 ms after it; the slot always takes the new time; the handler returns false |
| DoubleTap.Replay | src/ImageEditor.js:113-123 | after a series of taps the slot holds the last one, and no more resets than taps are requested |
| DoubleTap.ReplayCountsClosePairs | src/ImageEditor.js:113-123 | replaying taps requests exactly as many resets as there are taps following their immediate predecessor within the window (a reference count independent of the slot) |
| DoubleTap.TwoTaps | src/ImageEditor.js:116-120 | two taps from an empty slot reset once iff the first is non-zero and the second follows within 300 ms |
| ImageEditor.UpdateTransformData | src/ImageEditor.js:191-223 | reports the mapped crop; an explicit rotation is reported as given, 0 included, a missing one falls back to the state rotation; the view is recorded as the last offset, content size and crop size |
| ImageEditor.Mount | src/ImageEditor.js:64-111 | the mounted editor is consistent, holds the given image and crop-box sizes, starts at rotation 0 with no tap and no scroll view, records the centred view as the last scroll state, requests no zoom and no animation, and first reports the centred unrotated crop |
| ImageEditor.OnScroll | src/ImageEditor.js:125-131 | a settled scroll records exactly the event's offset, content size and crop box and nothing else, requests no zoom or animation, and reports the crop of that view with the state rotation |
| ImageEditor.RotateImage | src/ImageEditor.js:153-189 | the state rotation becomes the plan's normalised angle and the animation rests on it; only the rotation changes; the crop is reported again from the last scroll state; an animation starts iff animated, towards the plan's target |
| ImageEditor.ResetZoom | src/ImageEditor.js:138-147 | a zoom to the whole scaled image at the origin is requested iff the scroll view is attached |
| ImageEditor.ResetRotation | src/ImageEditor.js:149-151 | only the rotation changes, to 0; the animation to 0 runs unless `animated` is explicitly false; no zoom; the crop rectangle reported is unchanged |
| ImageEditor.Reset | src/ImageEditor.js:133-136 | the zoom request is `resetZoom` with `animateZoom` defaulting to true (one is made iff the scroll view is attached); only the rotation changes, to 0, animated unless `animateRotation` is explicitly false; rotation 0 is reported with the crop rectangle unchanged |
| ImageEditor.DetectDoubleTap | src/ImageEditor.js:113-123 | records the tap and nothing else; the zoom request is an animated `resetZoom` iff the tap follows the previous one within the window, none otherwise; nothing is reported or animated and the handler returns false |
| ImageEditor.Apply | src/ImageEditor.js:113-223 | every handler keeps the editor consistent, and every report is the crop of the state the editor is left in |
| ImageEditor.RunKeepsNormalized | src/ImageEditor.js:153-189 | with non-negative targets the rotation stays in {0, 90, 180, 270} over any event sequence |
| ImageEditor.FourRotationsFromMount | src/ImageEditor.js:153-189 | four default rotations after mounting report 90, 180, 270, 0 and the same crop rectangle as the mount |
| ImageEditor.RotationKeepsScrolledCrop | src/ImageEditor.js:166-173 | a rotation after a scroll reports the scrolled crop rectangle with only the rotation changed |
| CropperView.ReportedRotation | ImageCropper.js:370 | a non-zero explicit rotation is reported; a missing or zero one falls back to the state rotation |
| CropperView.UpdateTransformData | ImageCropper.js:355-375 | the same linear map as the editor, with the rotation falling back to the state rotation when missing or 0, and no state change |
| CropperView.Mount | ImageCropper.js:302-345 | the view holds the given image and crop-box sizes, starts at rotation 0 with no tap and no scroll view, does not zoom out, reports the centred unrotated crop; the fit gives cover, centred offset, minimum zoom 1 and maximum zoom min(widthRatio, heightRatio) |
| CropperView.OnScroll | ImageCropper.js:347-353 | a scroll changes nothing and reports the event's view mapped into image coordinates with the state rotation |
| CropperView.RotateImage | ImageCropper.js:400-416 | only the rotation changes, growing by exactly 90; nothing zooms out; the report is the initial centred crop with the new rotation |
| CropperView.DetectDoubleTap | ImageCropper.js:377-398 | records the tap; zooms out iff the tap follows within the window and the scroll view is attached; returns false |
| CropperView.DoubleTapNeedsScrollView | ImageCropper.js:377-435 | after mounting, a first tap never zooms out, and a second one does iff the first was non-zero, the second follows within 300 ms and the scroll view `ref` was set in between |
| CropperView.RotationsAccumulate | ImageCropper.js:400-416 | n rotations add exactly 90·n degrees and change nothing else |
| CropperView.FourRotationsReport360 | ImageCropper.js:400-416 | the fourth rotation after mounting reports 360 |
| CropperView.RotationForgetsScroll | ImageCropper.js:400-416 | after any scroll, a rotation reports the mount-time centred crop |
| CropperView.ExplicitZeroFallsBack | ImageCropper.js:370 | with state rotation 90, an explicit 0 is reported as 90 |
| CropperShell.Initial | src/ImageCropper.ios.js:41-51 | the wrapper holds the given image and starts with nothing measured, sized or reported, key 0 and no editor |
| CropperShell.IsSameSource | src/ImageCropper.ios.js:130-142 | an identical prop is the same source; a missing source (`null` and `undefined` merged) is the same only as another missing one; distinct present sources need equal non-empty uris |
| CropperShell.SameSourceByUri | src/ImageCropper.ios.js:130-142 | distinct sources are the same iff both uris are present, non-empty and equal; a missing uri on either side makes them different |
| CropperShell.SameSourceIsEquivalence | src/ImageCropper.ios.js:130-142 | source comparison is reflexive, symmetric and transitive |
| CropperShell.Render | src/ImageCropper.ios.js:199-221 | the editor is mounted iff image, image size and measured size are all present; a new mount reports the centred, unrotated crop; nothing else changes |
| CropperShell.RenderIdleUnderInv | src/ImageCropper.ios.js:199-221 | under the wrapper's consistency a re-render changes nothing |
| CropperShell.ReceiveProps | src/ImageCropper.ios.js:57-70 | a different source clears the crop data and image size and raises the key by exactly 1; the same source leaves all three unchanged |
| CropperShell.ReceivePropsAndResize | src/ImageCropper.ios.js:57-70 | a changed source, and only a changed source, is followed by `updateImageSize` on the new props, whose request is returned; a new source with both dimensions declared is sized at once under a key raised by 1 |
| CropperShell.UpdateImageSize | src/ImageCropper.ios.js:160-171 | a missing image, and only a missing image, throws; declared dimensions are used iff the image is present and both are truthy, and then only the image size (and the editor gate through it) changes; otherwise there is a size lookup when there is a non-empty uri and the lookup exists, an unavailable lookup when the uri is non-empty but the lookup is missing, and a static asset when the uri is empty, with state unchanged |
| CropperShell.ImageSizeResolved | src/ImageCropper.ios.js:113-118 | a looked-up size is kept iff both dimensions are non-zero; only the image size and the editor gate can change |
| CropperShell.OnLayout | src/ImageCropper.ios.js:173-194 | while nothing is measured yet, a zero width is ignored and any other width sets a square measured size; once measured, a layout changes nothing; only the measured size and the editor gate can change |
| CropperShell.TransformDataChanged | src/ImageCropper.ios.js:217 | a mounted editor's report replaces the held crop data |
| CropperShell.Crop | src/ImageCropper.ios.js:77-107 | no native call iff image, crop data or measured size is missing; otherwise the request carries the held crop data and resizes to the measured size, PNG, quality 100, with the crop's rotation |
| CropperShell.CropIffEditorMounted | src/ImageCropper.ios.js:77-80 | under the wrapper's consistency, `crop` reaches the native cropper iff an editor is mounted, and the resize is square |
| CropperShell.CropSucceeded | src/ImageCropper.ios.js:88-100 | keeps the resized uri and releases the intermediate image |
| CropperShell.CropFailed | src/ImageCropper.ios.js:102-105 | keeps the error and changes nothing else |
| CropperShell.Reset | src/ImageCropper.ios.js:144-151 | clears the cropped uri and the error and nothing else, releases the stored uri iff it is non-empty, and forwards both animation flags to the editor's reset iff one is mounted |
| CropperShell.Rotate | src/ImageCropper.ios.js:153-158 | the rotation is forwarded iff an editor is mounted |
| CropperShell.ReceiveAll | src/ImageCropper.ios.js:57-70 | a series of props keeps the wrapper consistent |
| CropperShell.KeyCountsSourceChanges | src/ImageCropper.ios.js:57-70 | over a series of props the key rises by exactly the number of source changes |
| SquareCropper.Reset | ImageCropper.js:245-254 | clears the cropped uri and the error and releases a non-empty stored uri, without touching the inner cropper |
| SquareCropper.ResetsAgreeOnWrapperState | ImageCropper.js:245-254 | both wrappers' resets leave the same state and release the same image |
| AspectFit.ScaleFactor | App.js:34-37 | the scale factor is positive and the scaled image covers the container, matching its width when the container is relatively wider and its height otherwise |
| AspectFit.MaxScale | App.js:38-44 | the maximum scale is at least 1 and at least both size ratios, and is one of them or 1 |
| AspectFit.AspectOfRatios | App.js:29-37 | comparing size ratios and comparing aspect ratios decide the same way |
| AspectFit.AgreesWithCoverFit | App.js:34-37 | the aspect-ratio fit gives the same scaled size as the editors' cover fit |
| AndroidPan.Scaled | src/ImageCropper.android.js:29-33 | the scaled image covers the container with one side matching exactly |
| AndroidPan.OutOfBoundsIsNotInRange | src/ImageCropper.android.js:125 | the program's bound test (positive, or magnitude above max) is exactly "p outside [-max, 0]" |
| AndroidPan.Mount | src/ImageCropper.android.js:62-87 | the image starts centred, with non-negative travel bounds equal to the overflow, both edges in range, scale 1 and no pinch |
| AndroidPan.AxisRelease | src/ImageCropper.android.js:125-143 | an out-of-bounds edge is unchanged; from in range, a drag that stays in range is applied and an overshoot snaps to 0 for a positive drag and to -max otherwise; the result is the clamp of the dragged position and stays in range |
| AndroidPan.HandleEnd | src/ImageCropper.android.js:123-163 | commits the clamped drag on each axis, keeps the invariant, commits `prevScale := scale` and clears the initial distance |
| AndroidPan.HandleGrant | src/ImageCropper.android.js:97-121 | a two-finger grant records the initial distance; nothing else changes |
| AndroidPan.HandleMove | src/ImageCropper.android.js:165-228 | never commits a position; one finger shows what the release would commit and changes only the shown edges (and ends a pinch in progress, committing its scale); a pinch with a known distance shows `distance / initialDistance * prevScale` and changes only the shown scale and the pinch flag, without one it records the distance; any other count ends a pinch in progress |
| AndroidPan.RunStaysInBounds | src/ImageCropper.android.js:123-228 | over any gesture sequence the committed and shown edges stay within their bounds |
| AndroidPan.PinchCommitsRatio | src/ImageCropper.android.js:193-213 | grant, pinch move and release commit `d / d0` times the previous scale |
| AndroidPan.ConstantsFreezeVerticalPan | src/ImageCropper.android.js:17-33 | with the module constants the vertical travel is 0, the horizontal travel is positive, and every committed top edge is 0 |
| AppPan.Style | App.js:53-63 | the style centres the scaled image (`2*left + width == container width`, likewise top), both offsets are at most 0, and its size is the editors' cover fit |
| AppPan.Mount | App.js:66-79 | all positions start at 0 |
| AppPan.HandleMove | App.js:114-119 | shows the committed position moved by the drag and commits nothing |
| AppPan.HandleEnd | App.js:106-112 | adds the drag to the committed position |
| AppPan.ReleaseKeepsShownPosition | App.js:106-119 | the committed position equals the position last shown |
| AppPan.DragsAccumulate | App.js:106-119 | a series of drags moves the committed position by their sum, and the shown position ends there |
| AppPan.NoClamping | App.js:106-112 | one drag can commit any position |
| AppPan.MountOverridesCentring | App.js:53-91 | with the constants the style's left is between -163 and -162 and its top 0, while the mounted position is (0, 0) |

## Left out

- Rendering, `Animated`, the scroll view's own zoom and scroll physics, and
  `setNativeProps`. These are UI. A scroll settling and an animation
  completing are single events.
- The native and asynchronous collaborators: `Image.getSize`,
  `ImageEditor.cropImage`/`RNImageCropper.cropImage`,
  `ImageResizer.createResizedImage` and `ImageStore.removeImageForTag`. Steps
  return the request they would send. Success and failure callbacks are
  separate events (`CropSucceeded`, `CropFailed`, `ImageSizeResolved`).
  Whether `Image.getSize` exists is a parameter of `UpdateImageSize`.
- Ordering races between asynchronous callbacks. For example, a size lookup
  for an old source can resolve after the source has changed. Each callback
  is modelled on the state it arrives in.
- Rotations that overlap an animation. The program reads `state.rotation`
  when `rotateImage` is called (src/ImageEditor.js:155, ImageCropper.js:401)
  and stores the new angle only when the 225 ms animation ends, so two calls
  within one animation both target the same angle. The model completes each
  rotation before the next event, so two such calls accumulate.
- Object identity of image sources. An `ImageSource` is compared by value,
  with a `ref` tag standing for the JavaScript object's identity. The same
  object mutated in place between two renders, and an `image` prop given as
  a plain string, cannot be expressed.
- CropperShell.IsSameSource: a missing source is one value, so JavaScript's
  `null` and `undefined` are merged. The program's `===` test
  (src/ImageCropper.ios.js:131, ImageCropper.js:191) tells them apart, so a
  change from `undefined` to `null` counts as a new source there: the crop
  data and image size are cleared, the key rises, and the following
  `updateImageSize` throws. The model treats that change as the same
  source.
- Props that change while an editor is mounted. The editors fit once, at
  mount, as the program does, but `updateTransformData` reads the live
  `props.imageSize` and `props.size` (src/ImageEditor.js:204-209,
  ImageCropper.js:363-368). The model holds both fixed after mount, so a
  report after a changed prop is not followed.
- `Math.sqrt` pinch distances. Finger distances are inputs.
- The `onCropImage` and `onTransformDataChange` prop callbacks' presence
  checks. A report is always delivered to the wrapper.
- The calls to the `onCropImage` prop itself: `onCropImage(null, result)`
  after a successful resize and `onCropImage(cropError)` after a failed crop
  (src/ImageCropper.ios.js:98, 104). They are calls into the embedding
  application; `CropSucceeded` and `CropFailed` model only the wrapper's own
  state.
- The `forceUpdate` retry in the prototypes' `handleGrant` and their opacity
  changes. These are UI.
- `src/ImageCropper.android.js` line 14 logs an undefined `image`, so that
  module fails at load as written. Only its arithmetic and clamp rules are
  modelled.
- NaN, infinities and floating-point rounding. All arithmetic is exact.
- example/App.js, Wrapper.js and libdefs.js are demo screens and type
  declarations. src/types.js gives the datatype shapes in module `Types`.
- AndroidPan.Mount: the fitted size, the starting offsets and the travel bounds are exact, without the module's `Math.round`, so the centring is exact rather than to the nearest point.
- AndroidPan.Scaled: stated before `Math.round`.
- CoverFit.Cover: requires positive image and viewport sizes. The program divides by them, and the wrappers only pass truthy sizes. Negative sizes are outside the model.
- CropperShell.ImageSizeResolved: requires non-negative dimensions; a negative size from the lookup is outside the model.
- CropperShell.OnLayout: requires a non-negative width; a negative layout width is outside the model.
- CropperShell.UpdateImageSize: requires non-negative declared dimensions, for the same reason.
- ImageEditor.RunKeepsNormalized: requires every rotation target to be non-negative. A negative target keeps its sign (`Rotation.NegativeTargetKeepsSign`), and the weaker invariant of every state, a multiple of 90 strictly between -360 and 360, holds for all targets through `ImageEditor.Apply`.

=== FILE: android_pan.dfy ===
/** The pan-and-pinch prototype of src/ImageCropper.android.js: the image is
    fitted once at module load, one-finger drags move it inside the
    container with each edge clamped, and two-finger pinches scale it
    relative to the scale committed by the previous gesture. Positions are
    exact reals; the module's `Math.round` of the fitted size and offsets is
    not applied. */
module AndroidPan {
  import opened Types
  import AspectFit

  /** The module constants the prototype is written against. */
  const ImageDimensions := Size(2352.0, 1882.0)
  const ContainerDimensions := Size(300.0, 400.0)

  /** The style pushed to the image with `setNativeProps`. */
  datatype Box = Box(left: real, top: real, scale: real)

  datatype Pan = Pan(
    prevLeft: real,                  // committed left edge
    prevTop: real,                   // committed top edge
    maxLeft: real,                   // how far left the image may travel
    maxTop: real,                    // how far up the image may travel
    scale: real,                     // the scale shown by the current pinch
    prevScale: real,                 // the scale committed by the last gesture
    initialDistance: Option<real>,   // finger distance when the pinch began
    isZooming: bool,
    box: Box)

  /** A committed edge lies within `[-max, 0]`: the image still covers the
      container along that axis. */
  predicate InRange(p: real, max: real) {
    -max <= p <= 0.0
  }

  /** The program's test `p > 0 || Math.abs(p) > max`. */
  predicate OutOfBounds(p: real, max: real) {
    p > 0.0 || Abs(p) > max
  }

  /** The program's out-of-bounds test is exactly "not in range". */
  lemma OutOfBoundsIsNotInRange(p: real, max: real)
    ensures OutOfBounds(p, max) <==> !InRange(p, max)
  {
  }

  function Clamp(v: real, lo: real, hi: real): real
    requires lo <= hi
  {
    if v < lo then lo else if v > hi then hi else v
  }

  /** The image scaled by the aspect-ratio factor, before rounding. */
  function Scaled(image: Size, container: Size): (s: Size)
    requires IsPositive(image) && IsPositive(container)
    ensures s.width >= container.width && s.height >= container.height
    ensures s.width == container.width || s.height == container.height
  {
    var sf := AspectFit.ScaleFactor(image, container);
    Size(image.width * sf, image.height * sf)
  }

  /** The invariant every gesture keeps: the travel bounds are
      non-negative, and both the committed and the shown edges lie within
      them. */
  predicate Inv(p: Pan) {
    && p.maxLeft >= 0.0 && p.maxTop >= 0.0
    && InRange(p.prevLeft, p.maxLeft) && InRange(p.prevTop, p.maxTop)
    && InRange(p.box.left, p.maxLeft) && InRange(p.box.top, p.maxTop)
  }

  /** `componentWillMount`: centre the scaled image in the container, with
      scale 1 and no pinch in progress. */
  function Mount(image: Size, container: Size): (p: Pan)
    requires IsPositive(image) && IsPositive(container)
    ensures Inv(p)
    ensures p.maxLeft + container.width == Scaled(image, container).width
    ensures p.maxTop + container.height == Scaled(image, container).height
    // centred: the overflow is split evenly between the two edges
    ensures 2.0 * p.prevLeft + p.maxLeft == 0.0 && 2.0 * p.prevTop + p.maxTop == 0.0
    ensures p.box == Box(p.prevLeft, p.prevTop, 1.0)
    ensures p.scale == 1.0 && p.prevScale == 1.0 && p.initialDistance.None? && !p.isZooming
  {
    var s := Scaled(image, container);
    var left := (container.width - s.width) / 2.0;
    var top := (container.height - s.height) / 2.0;
    Pan(left, top, s.width - container.width, s.height - container.height,
        1.0, 1.0, None, false, Box(left, top, 1.0))
  }

  /** One axis of `handleEnd` (and of the one-finger `handleMove`): an edge
      already out of bounds stays put; otherwise the drag is applied, and an
      overshoot snaps to the edge toward which the drag travels. */
  function AxisRelease(prev: real, d: real, max: real): (r: real)
    ensures OutOfBounds(prev, max) ==> r == prev
    ensures InRange(prev, max) && InRange(prev + d, max) ==> r == prev + d
    ensures InRange(prev, max) && !InRange(prev + d, max) ==> r == (if d > 0.0 then 0.0 else -max)
    ensures max >= 0.0 && InRange(prev, max) ==> InRange(r, max)
    // from in range, a release is the clamp of the dragged position
    ensures max >= 0.0 && InRange(prev, max) ==> r == Clamp(prev + d, -max, 0.0)
  {
    if OutOfBounds(prev, max) then prev
    else if OutOfBounds(prev + d, max) then (if d > 0.0 then 0.0 else -max)
    else prev + d
  }

  /** `handleEnd`: commit the dragged position axis by axis, commit the
      pinch scale and forget the pinch's starting distance. */
  function HandleEnd(p: Pan, dx: real, dy: real): (q: Pan)
    ensures Inv(p) ==> Inv(q)
    ensures q.prevScale == p.scale && q.initialDistance.None?
    // the clamp limits, the shown style and the pinch flag are untouched
    ensures q.maxLeft == p.maxLeft && q.maxTop == p.maxTop && q.box == p.box
    ensures q.scale == p.scale && q.isZooming == p.isZooming
    ensures Inv(p) ==> q.prevLeft == Clamp(p.prevLeft + dx, -p.maxLeft, 0.0)
    ensures Inv(p) ==> q.prevTop == Clamp(p.prevTop + dy, -p.maxTop, 0.0)
  {
    p.(prevLeft := AxisRelease(p.prevLeft, dx, p.maxLeft),
       prevTop := AxisRelease(p.prevTop, dy, p.maxTop),
       prevScale := p.scale,
       initialDistance := None)
  }

  /** `handleGrant`: a two-finger grant records the starting distance. */
  function HandleGrant(p: Pan, touches: int, distance: real): (q: Pan)
    ensures Inv(p) ==> Inv(q)
    ensures touches == 2 ==> q.initialDistance == Some(distance)
    ensures q == p.(initialDistance := q.initialDistance)
    ensures touches != 2 ==> q == p
  {
    if touches == 2 then p.(initialDistance := Some(distance)) else p
  }

  /** `handleMove`. One finger shows the dragged position without committing
      it; two fingers pinch (the first pinch move only records the distance
      when none is known); any other count ends a pinch in progress. */
  function HandleMove(p: Pan, touches: int, dx: real, dy: real, distance: real): (q: Pan)
    ensures Inv(p) ==> Inv(q)
    // a move never commits a position
    ensures q.prevLeft == p.prevLeft && q.prevTop == p.prevTop
    ensures q.maxLeft == p.maxLeft && q.maxTop == p.maxTop
    // one finger shows what a release would commit
    ensures touches == 1 ==>
      q.box.left == HandleEnd(p, dx, dy).prevLeft && q.box.top == HandleEnd(p, dx, dy).prevTop
    ensures touches == 2 && NumberTruthy(p.initialDistance) ==>
      && q.scale == distance / p.initialDistance.value * p.prevScale
      && q.box.scale == q.scale && q.isZooming
    ensures touches == 2 && !NumberTruthy(p.initialDistance) ==>
      q == p.(isZooming := true, initialDistance := Some(distance))
    ensures touches != 2 && p.isZooming ==>
      q.prevScale == p.scale && q.initialDistance.None? && !q.isZooming
    ensures touches != 1 && touches != 2 && !p.isZooming ==> q == p
    // nothing else changes: a drag touches only the shown edges, a pinch
    // only the shown scale and the pinch flag, and a drag that ends a pinch
    // also commits the pinch's scale
    ensures touches == 1 && !p.isZooming ==> q == p.(box := Box(q.box.left, q.box.top, p.box.scale))
    ensures touches == 1 && p.isZooming ==>
      q == p.(box := Box(q.box.left, q.box.top, p.box.scale),
              initialDistance := None, prevScale := p.scale, isZooming := false)
    ensures touches == 2 && NumberTruthy(p.initialDistance) ==>
      q == p.(isZooming := true, scale := q.scale, box := p.box.(scale := q.scale))
    ensures touches != 1 && touches != 2 && p.isZooming ==>
      q == p.(initialDistance := None, prevScale := p.scale, isZooming := false)
  {
    var shown :=
      if touches == 1 then
        p.(box := p.box.(left := AxisRelease(p.prevLeft, dx, p.maxLeft),
                         top := AxisRelease(p.prevTop, dy, p.maxTop)))
      else p;
    if touches == 2 then
      var zooming := shown.(isZooming := true);
      if !NumberTruthy(zooming.initialDistance) then
        zooming.(initialDistance := Some(distance))
      else
        var scale := distance / zooming.initialDistance.value * zooming.prevScale;
        zooming.(scale := scale, box := zooming.box.(scale := scale))
    else if shown.isZooming then
      shown.(initialDistance := None, prevScale := shown.scale, isZooming := false)
    else
      shown
  }

  /** The responder callbacks, with the touch geometry already reduced to a
      finger count, the drag and the finger distance. */
  datatype Gesture =
    | Grant(touches: int, distance: real)
    | Move(touches: int, dx: real, dy: real, distance: real)
    | Release(dx: real, dy: real)

  function Apply(p: Pan, g: Gesture): Pan {
    match g
    case Grant(n, dist) => HandleGrant(p, n, dist)
    case Move(n, dx, dy, dist) => HandleMove(p, n, dx, dy, dist)
    case Release(dx, dy) => HandleEnd(p, dx, dy)
  }

  function Run(p: Pan, gs: seq<Gesture>): Pan
    decreases |gs|
  {
    if |gs| == 0 then p else Run(Apply(p, gs[0]), gs[1..])
  }

  /** Whatever gestures arrive, a mounted image never leaves its bounds. */
  lemma {:induction false} RunStaysInBounds(p: Pan, gs: seq<Gesture>)
    requires Inv(p)
    ensures Inv(Run(p, gs))
    ensures Run(p, gs).maxLeft == p.maxLeft && Run(p, gs).maxTop == p.maxTop
    decreases |gs|
  {
    if |gs| > 0 {
      RunStaysInBounds(Apply(p, gs[0]), gs[1..]);
    }
  }

  /** A full pinch: a two-finger grant at distance `d0`, a move to distance
      `d` and a release commit `d / d0` times the previous scale. */
  lemma PinchCommitsRatio(p: Pan, d0: real, d: real)
    requires d0 != 0.0
    ensures Run(p, [Grant(2, d0), Move(2, 0.0, 0.0, d), Release(0.0, 0.0)]).prevScale
         == d / d0 * p.prevScale
  {
    var g := HandleGrant(p, 2, d0);
    var m := HandleMove(g, 2, 0.0, 0.0, d);
    assert Run(p, [Grant(2, d0), Move(2, 0.0, 0.0, d), Release(0.0, 0.0)])
        == Run(m, [Release(0.0, 0.0)]);
  }

  /** With the module's constants the image is fitted to the container's
      height, so it can travel sideways only: every committed top edge is
      0. */
  lemma ConstantsFreezeVerticalPan(gs: seq<Gesture>)
    ensures Mount(ImageDimensions, ContainerDimensions).maxTop == 0.0
    ensures Mount(ImageDimensions, ContainerDimensions).maxLeft > 0.0
    ensures Run(Mount(ImageDimensions, ContainerDimensions), gs).prevTop == 0.0
  {
    var m := Mount(ImageDimensions, ContainerDimensions);
    assert AspectFit.Aspect(ContainerDimensions) <= AspectFit.Aspect(ImageDimensions);
    RunStaysInBounds(m, gs);
  }
}

=== FILE: app_pan.dfy ===
/** The first pan prototype, App.js: the image is fitted with the
    aspect-ratio factor and centred by its style, and drags move it with no
    bound at all. */
module AppPan {
  import opened Types
  import AspectFit
  import CoverFit

  /** The module constants the prototype is written against. */
  const ImageDimensions := Size(2352.0, 1882.0)
  const ContainerDimensions := Size(300.0, 500.0)

  /** The absolute-position style of the image. */
  datatype ImageStyle = ImageStyle(left: real, top: real, width: real, height: real)

  /** `imageStyle`: the scaled image, centred in the container. */
  function Style(image: Size, container: Size): (s: ImageStyle)
    requires IsPositive(image) && IsPositive(container)
    // centred, overflowing on both sides equally
    ensures s.left <= 0.0 && s.top <= 0.0
    ensures 2.0 * s.left + s.width == container.width
    ensures 2.0 * s.top + s.height == container.height
    // the same size as the editors' cover fit
    ensures Size(s.width, s.height) == CoverFit.ScaledSize(image, container)
  {
    var sf := AspectFit.ScaleFactor(image, container);
    AspectFit.AgreesWithCoverFit(image, container);
    ImageStyle((container.width - image.width * sf) / 2.0,
               (container.height - image.height * sf) / 2.0,
               image.width * sf, image.height * sf)
  }

  /** The committed position and the position shown. */
  datatype Pan = Pan(prevLeft: real, prevTop: real, boxLeft: real, boxTop: real)

  /** `componentWillMount`: every position starts at 0. */
  function Mount(): (p: Pan)
    ensures p.prevLeft == 0.0 && p.prevTop == 0.0 && p.boxLeft == 0.0 && p.boxTop == 0.0
  {
    Pan(0.0, 0.0, 0.0, 0.0)
  }

  /** `handleMove`: show the committed position moved by the drag. */
  function HandleMove(p: Pan, dx: real, dy: real): (q: Pan)
    ensures q.prevLeft == p.prevLeft && q.prevTop == p.prevTop
    ensures q.boxLeft - p.prevLeft == dx && q.boxTop - p.prevTop == dy
  {
    p.(boxLeft := p.prevLeft + dx, boxTop := p.prevTop + dy)
  }

  /** `handleEnd`: add the drag to the committed position. */
  function HandleEnd(p: Pan, dx: real, dy: real): (q: Pan)
    ensures q.boxLeft == p.boxLeft && q.boxTop == p.boxTop
    ensures q.prevLeft - p.prevLeft == dx && q.prevTop - p.prevTop == dy
  {
    p.(prevLeft := p.prevLeft + dx, prevTop := p.prevTop + dy)
  }

  /** The position a release commits is the one the last move showed. */
  lemma ReleaseKeepsShownPosition(p: Pan, dx: real, dy: real)
    ensures var q := HandleEnd(HandleMove(p, dx, dy), dx, dy);
      q.prevLeft == q.boxLeft && q.prevTop == q.boxTop
  {
  }

  /** A completed drag: moves ending at the total displacement, then the
      release. */
  datatype Drag = Drag(dx: real, dy: real)

  function Drags(p: Pan, ds: seq<Drag>): Pan
    decreases |ds|
  {
    if |ds| == 0 then p
    else Drags(HandleEnd(HandleMove(p, ds[0].dx, ds[0].dy), ds[0].dx, ds[0].dy), ds[1..])
  }

  function SumDx(ds: seq<Drag>): real
    decreases |ds|
  {
    if |ds| == 0 then 0.0 else ds[0].dx + SumDx(ds[1..])
  }

  function SumDy(ds: seq<Drag>): real
    decreases |ds|
  {
    if |ds| == 0 then 0.0 else ds[0].dy + SumDy(ds[1..])
  }

  /** Drags accumulate: the committed position moves by the sum of the
      drags, and what is shown after a non-empty series is what was
      committed. */
  lemma {:induction false} DragsAccumulate(p: Pan, ds: seq<Drag>)
    ensures Drags(p, ds).prevLeft == p.prevLeft + SumDx(ds)
    ensures Drags(p, ds).prevTop == p.prevTop + SumDy(ds)
    ensures |ds| > 0 ==>
      Drags(p, ds).boxLeft == Drags(p, ds).prevLeft && Drags(p, ds).boxTop == Drags(p, ds).prevTop
    decreases |ds|
  {
    if |ds| > 0 {
      DragsAccumulate(HandleEnd(HandleMove(p, ds[0].dx, ds[0].dy), ds[0].dx, ds[0].dy), ds[1..]);
    }
  }

  /** Nothing bounds the pan: a single drag can commit any position. */
  lemma NoClamping(p: Pan, left: real, top: real)
    ensures exists d: Drag :: Drags(p, [d]).prevLeft == left && Drags(p, [d]).prevTop == top
  {
    var d := Drag(left - p.prevLeft, top - p.prevTop);
    DragsAccumulate(p, [d]);
    assert SumDx([d]) == d.dx && SumDy([d]) == d.dy;
  }

  /** With the module's constants the style centres the image about 162 points
      left of the container's edge, but the mount-time position update
      writes `left: 0` and `top: 0` over the style, so the image first
      appears aligned to the top-left corner instead. */
  lemma MountOverridesCentring()
    ensures -163.0 < Style(ImageDimensions, ContainerDimensions).left < -162.0
    ensures Style(ImageDimensions, ContainerDimensions).top == 0.0
    ensures Mount().boxLeft == 0.0 && Mount().boxTop == 0.0
  {
    assert AspectFit.Aspect(ContainerDimensions) <= AspectFit.Aspect(ImageDimensions);
  }
}

=== FILE: aspect_fit.dfy ===
/** The module-level fit of the pan prototypes (App.js and
    src/ImageCropper.android.js): one uniform scale factor chosen by
    comparing aspect ratios, and a maximum pinch scale. */
module AspectFit {
  import opened Types
  import CoverFit

  function Aspect(s: Size): real
    requires s.height != 0.0
  {
    s.width / s.height
  }

  /** Comparing fractions with positive denominators by cross-multiplying. */
  lemma CrossMultiply(a: real, b: real, c: real, d: real)
    requires b > 0.0 && d > 0.0
    ensures a / b > c / d <==> a * d > c * b
    ensures a / b == c / d <==> a * d == c * b
  {
    assert (a / b) * (b * d) == a * d;
    assert (c / d) * (b * d) == c * b;
    MultiplyKeepsOrder(a / b, c / d, b * d);
  }

  lemma MultiplyKeepsOrder(x: real, y: real, k: real)
    requires k > 0.0
    ensures x > y <==> x * k > y * k
    ensures x == y <==> x * k == y * k
  {
    assert x * k - y * k == (x - y) * k;
  }

  /** Scaling side `a` onto `c` makes side `b` at least `d` when
      `c * b >= a * d`. */
  lemma CoverSide(a: real, b: real, c: real, d: real)
    requires a > 0.0 && b > 0.0 && c > 0.0 && d > 0.0
    requires c * b >= a * d
    ensures a * (c / a) == c
    ensures b * (c / a) >= d
  {
    assert b * (c / a) == (b * c) / a;
    assert (a * d) / a == d;
    assert (b * c) / a >= (a * d) / a by {
      MultiplyKeepsOrder((b * c) / a, (a * d) / a, a);
    }
  }

  /** `scaleFactor`: match the container's width when the container is
      relatively wider than the image, its height otherwise. */
  function ScaleFactor(image: Size, container: Size): (sf: real)
    requires IsPositive(image) && IsPositive(container)
    ensures sf > 0.0
    // the scaled image covers the container
    ensures image.width * sf >= container.width && image.height * sf >= container.height
    // exactly the chosen side matches
    ensures Aspect(container) > Aspect(image) ==> image.width * sf == container.width
    ensures Aspect(container) <= Aspect(image) ==> image.height * sf == container.height
  {
    CrossMultiply(container.width, container.height, image.width, image.height);
    if Aspect(container) > Aspect(image) then
      CoverSide(image.width, image.height, container.width, container.height);
      container.width / image.width
    else
      CoverSide(image.height, image.width, container.height, container.width);
      container.height / image.height
  }

  /** `maxScale`: the larger of the two size ratios, and never below 1. */
  function MaxScale(image: Size, container: Size): (m: real)
    requires IsPositive(container)
    ensures m >= 1.0
    ensures m >= image.width / container.width && m >= image.height / container.height
    ensures m == 1.0 || m == image.width / container.width || m == image.height / container.height
  {
    Max(Max(image.width / container.width, image.height / container.height), 1.0)
  }

  /** The editors compare size ratios, the prototypes aspect ratios; the two
      comparisons agree. */
  lemma AspectOfRatios(image: Size, container: Size)
    requires IsPositive(image) && IsPositive(container)
    ensures CoverFit.Horizontal(image, container) <==> Aspect(image) > Aspect(container)
    ensures CoverFit.Horizontal(image, container) <==> image.width * container.height > image.height * container.width
    ensures Aspect(container) > Aspect(image) <==> container.width * image.height > image.width * container.height
  {
    CrossMultiply(image.width, container.width, image.height, container.height);
    CrossMultiply(image.width, image.height, container.width, container.height);
    CrossMultiply(container.width, container.height, image.width, image.height);
  }

  /** `a * (c / b) == a / (b / c)`: scaling by a ratio or dividing by its
      inverse. */
  lemma DivideByRatio(a: real, b: real, c: real)
    requires b > 0.0 && c > 0.0
    ensures a * (c / b) == a / (b / c)
  {
    assert (a / (b / c)) * (b / c) == a;
    assert (c / b) * (b / c) == 1.0;
    assert (a * (c / b)) * (b / c) == a * ((c / b) * (b / c));
    MultiplyKeepsOrder(a * (c / b), a / (b / c), b / c);
  }

  /** With equal aspect ratios, scaling the height onto the container's
      height also scales the width onto its width. */
  lemma EqualAspectBothSides(iw: real, ih: real, cw: real, ch: real)
    requires iw > 0.0 && ih > 0.0 && cw > 0.0 && ch > 0.0
    requires iw * ch == ih * cw
    ensures iw * (ch / ih) == cw
    ensures ih / (iw / cw) == ch
  {
    assert iw * (ch / ih) == (iw * ch) / ih;
    assert (ih * cw) / ih == cw;
    DivideByRatio(ih, iw, cw);
    assert ih * (cw / iw) == (ih * cw) / iw;
    assert (iw * ch) / iw == ch;
  }

  /** The prototypes' scaled image is the same size as the editors' cover
      fit: two independent formulations of "smallest uniform cover". */
  lemma AgreesWithCoverFit(image: Size, container: Size)
    requires IsPositive(image) && IsPositive(container)
    ensures var sf := ScaleFactor(image, container);
      Size(image.width * sf, image.height * sf) == CoverFit.ScaledSize(image, container)
  {
    var sf := ScaleFactor(image, container);
    AspectOfRatios(image, container);
    if CoverFit.Horizontal(image, container) {
      assert sf == container.height / image.height;
      DivideByRatio(image.width, image.height, container.height);
    } else if Aspect(container) > Aspect(image) {
      assert sf == container.width / image.width;
      DivideByRatio(image.height, image.width, container.width);
    } else {
      assert sf == container.height / image.height;
      EqualAspectBothSides(image.width, image.height, container.width, container.height);
    }
  }
}

=== FILE: cover_fit.dfy ===
/** The viewport fit computed when an editor mounts: scale the image to the
    smallest size that still fills the crop box, centre the overflow, and
    derive the zoom bounds. src/ImageEditor.js and the inner ImageCropper
    class of ImageCropper.js carry the same code; it is defined once here. */
module CoverFit {
  import opened Types

  datatype Fit = Fit(
    horizontal: bool,
    scaled: Size,
    contentOffset: Offset,
    minimumZoomScale: real,
    maximumZoomScale: real)

  function WidthRatio(imageSize: Size, size: Size): real
    requires size.width != 0.0
  {
    imageSize.width / size.width
  }

  function HeightRatio(imageSize: Size, size: Size): real
    requires size.height != 0.0
  {
    imageSize.height / size.height
  }

  /** Image size divided by a positive ratio, when the ratio is the smaller
      one, is at least the viewport side belonging to the larger ratio. */
  lemma DivideBySmallerRatio(a: real, side: real, small: real, large: real)
    requires side > 0.0 && small > 0.0 && large >= small
    requires a == large * side
    ensures a / small >= side
  {
    assert a / small == (large / small) * side;
    assert large / small >= 1.0;
  }

  /** Both scaled sides are divided by the same ratio: the aspect is kept. */
  lemma UniformScaling(w: real, h: real, r: real)
    requires r > 0.0
    ensures (w / r) * h == (h / r) * w
  {
    assert w / r * h == w * h / r;
    assert h / r * w == w * h / r;
  }

  lemma RatioAtMostOne(part: real, whole: real)
    requires 0.0 < part <= whole
    ensures part / whole <= 1.0
  {
  }

  /** True when the image is relatively wider than the viewport, so the
      height is the binding side and the width overflows. */
  predicate Horizontal(imageSize: Size, size: Size)
    requires IsPositive(size)
  {
    WidthRatio(imageSize, size) > HeightRatio(imageSize, size)
  }

  /** The smallest uniformly scaled image that fills the viewport. */
  function ScaledSize(imageSize: Size, size: Size): (scaled: Size)
    requires IsPositive(imageSize) && IsPositive(size)
    ensures scaled.width >= size.width && scaled.height >= size.height
    ensures Horizontal(imageSize, size) ==> scaled.height == size.height
    ensures !Horizontal(imageSize, size) ==> scaled.width == size.width
    ensures scaled.width * imageSize.height == scaled.height * imageSize.width
  {
    var widthRatio := WidthRatio(imageSize, size);
    var heightRatio := HeightRatio(imageSize, size);
    if widthRatio > heightRatio then
      DivideBySmallerRatio(imageSize.width, size.width, heightRatio, widthRatio);
      UniformScaling(imageSize.width, imageSize.height, heightRatio);
      Size(imageSize.width / heightRatio, size.height)
    else
      DivideBySmallerRatio(imageSize.height, size.height, widthRatio, heightRatio);
      UniformScaling(imageSize.height, imageSize.width, widthRatio);
      Size(size.width, imageSize.height / widthRatio)
  }

  /** The largest zoom shows the image at its native resolution. */
  lemma MaximumZoomIsNative(imageSize: Size, size: Size)
    requires IsPositive(imageSize) && IsPositive(size)
    ensures var scaled := ScaledSize(imageSize, size);
      var m := Min(imageSize.width / scaled.width, imageSize.height / scaled.height);
      && m == Min(WidthRatio(imageSize, size), HeightRatio(imageSize, size))
      && scaled.width * m == imageSize.width
      && scaled.height * m == imageSize.height
  {
    var scaled := ScaledSize(imageSize, size);
    var widthRatio := WidthRatio(imageSize, size);
    var heightRatio := HeightRatio(imageSize, size);
    if widthRatio > heightRatio {
      assert imageSize.width / scaled.width == heightRatio;
      assert imageSize.height / scaled.height == heightRatio;
    } else {
      assert imageSize.width / scaled.width == widthRatio;
      assert imageSize.height / scaled.height == widthRatio;
    }
  }

  /** The fit of an image of `imageSize` into a viewport of `size`. */
  function Cover(imageSize: Size, size: Size): (f: Fit)
    requires IsPositive(imageSize) && IsPositive(size)
    // the scroll direction is the dimension that overflows
    ensures f.horizontal <==> WidthRatio(imageSize, size) > HeightRatio(imageSize, size)
    // the scaled image covers the viewport
    ensures f.scaled.width >= size.width && f.scaled.height >= size.height
    // the binding side matches the viewport exactly
    ensures f.horizontal ==> f.scaled.height == size.height
    ensures !f.horizontal ==> f.scaled.width == size.width
    // scaling is uniform
    ensures f.scaled.width * imageSize.height == f.scaled.height * imageSize.width
    // the initial offset centres the overflow and is non-negative
    ensures 2.0 * f.contentOffset.x + size.width == f.scaled.width
    ensures 2.0 * f.contentOffset.y + size.height == f.scaled.height
    ensures f.contentOffset.x >= 0.0 && f.contentOffset.y >= 0.0
    ensures f.horizontal ==> f.contentOffset.y == 0.0
    ensures !f.horizontal ==> f.contentOffset.x == 0.0
    // zoom bounds: 1 fills the viewport, the maximum shows native pixels
    ensures f.minimumZoomScale == 1.0
    ensures f.maximumZoomScale == Min(WidthRatio(imageSize, size), HeightRatio(imageSize, size))
    ensures f.scaled.width * f.maximumZoomScale == imageSize.width
    ensures f.scaled.height * f.maximumZoomScale == imageSize.height
  {
    var scaled := ScaledSize(imageSize, size);
    var contentOffset := Offset((scaled.width - size.width) / 2.0, (scaled.height - size.height) / 2.0);
    var maximumZoomScale := Min(imageSize.width / scaled.width, imageSize.height / scaled.height);
    var minimumZoomScale := Max(size.width / scaled.width, size.height / scaled.height);
    MaximumZoomIsNative(imageSize, size);
    RatioAtMostOne(size.width, scaled.width);
    RatioAtMostOne(size.height, scaled.height);
    Fit(Horizontal(imageSize, size), scaled, contentOffset, minimumZoomScale, maximumZoomScale)
  }
}

=== FILE: crop_transform.dfy ===
/** The crop-transform map of `updateTransformData`: a scroll offset and a
    crop box measured on the scaled, zoomed content are carried over to the
    source image by the ratio of image size to content size. */
module CropTransform {
  import opened Types
  import CoverFit

  /** A rectangle in source-image pixels. */
  datatype Region = Region(offset: Offset, size: Size)

  /** A length measured against `from`, carried over to the same proportion
      of `to`. */
  function Rescale(v: real, from: real, to: real): real
    requires from != 0.0
  {
    to * (v / from)
  }

  /** Rescaling keeps the proportion: `r / to == v / from`, multiplied out. */
  lemma RescaleProportion(v: real, from: real, to: real)
    requires from != 0.0
    ensures Rescale(v, from, to) * from == to * v
  {
  }

  /** Rescaling there and back returns the original length. */
  lemma RescaleBack(v: real, from: real, to: real)
    requires from != 0.0 && to != 0.0
    ensures Rescale(Rescale(v, from, to), to, from) == v
  {
    assert (to * (v / from)) / to == v / from;
  }

  /** The part of the image under the crop box, for a scroll `offset`, a
      content size `scaled` and a crop box `cropBox`, all in display units. */
  function ToImage(imageSize: Size, offset: Offset, scaled: Size, cropBox: Size): (r: Region)
    requires scaled.width != 0.0 && scaled.height != 0.0
    // each coordinate keeps its proportion of the whole
    ensures r.offset.x * scaled.width == imageSize.width * offset.x
    ensures r.offset.y * scaled.height == imageSize.height * offset.y
    ensures r.size.width * scaled.width == imageSize.width * cropBox.width
    ensures r.size.height * scaled.height == imageSize.height * cropBox.height
  {
    RescaleProportion(offset.x, scaled.width, imageSize.width);
    RescaleProportion(offset.y, scaled.height, imageSize.height);
    RescaleProportion(cropBox.width, scaled.width, imageSize.width);
    RescaleProportion(cropBox.height, scaled.height, imageSize.height);
    Region(
      Offset(Rescale(offset.x, scaled.width, imageSize.width), Rescale(offset.y, scaled.height, imageSize.height)),
      Size(Rescale(cropBox.width, scaled.width, imageSize.width), Rescale(cropBox.height, scaled.height, imageSize.height)))
  }

  /** The inverse map: a region of the image back onto the scaled content. */
  function ToDisplay(imageSize: Size, scaled: Size, r: Region): (view: (Offset, Size))
    requires imageSize.width != 0.0 && imageSize.height != 0.0
    ensures view.0.x * imageSize.width == scaled.width * r.offset.x
    ensures view.0.y * imageSize.height == scaled.height * r.offset.y
    ensures view.1.width * imageSize.width == scaled.width * r.size.width
    ensures view.1.height * imageSize.height == scaled.height * r.size.height
  {
    RescaleProportion(r.offset.x, imageSize.width, scaled.width);
    RescaleProportion(r.offset.y, imageSize.height, scaled.height);
    RescaleProportion(r.size.width, imageSize.width, scaled.width);
    RescaleProportion(r.size.height, imageSize.height, scaled.height);
    (Offset(Rescale(r.offset.x, imageSize.width, scaled.width), Rescale(r.offset.y, imageSize.height, scaled.height)),
     Size(Rescale(r.size.width, imageSize.width, scaled.width), Rescale(r.size.height, imageSize.height, scaled.height)))
  }

  /** Mapping the display state into the image and back loses nothing. */
  lemma DisplayRoundTrip(imageSize: Size, offset: Offset, scaled: Size, cropBox: Size)
    requires imageSize.width != 0.0 && imageSize.height != 0.0
    requires scaled.width != 0.0 && scaled.height != 0.0
    ensures ToDisplay(imageSize, scaled, ToImage(imageSize, offset, scaled, cropBox)) == (offset, cropBox)
  {
    RescaleBack(offset.x, scaled.width, imageSize.width);
    RescaleBack(offset.y, scaled.height, imageSize.height);
    RescaleBack(cropBox.width, scaled.width, imageSize.width);
    RescaleBack(cropBox.height, scaled.height, imageSize.height);
  }

  /** Mapping an image region onto the display and back loses nothing. */
  lemma ImageRoundTrip(imageSize: Size, scaled: Size, r: Region)
    requires imageSize.width != 0.0 && imageSize.height != 0.0
    requires scaled.width != 0.0 && scaled.height != 0.0
    ensures var view := ToDisplay(imageSize, scaled, r);
      ToImage(imageSize, view.0, scaled, view.1) == r
  {
    RescaleBack(r.offset.x, imageSize.width, scaled.width);
    RescaleBack(r.offset.y, imageSize.height, scaled.height);
    RescaleBack(r.size.width, imageSize.width, scaled.width);
    RescaleBack(r.size.height, imageSize.height, scaled.height);
  }

  /** One axis of the containment argument: a span inside [0, whole] of the
      content maps to a span inside [0, side] of the image. */
  lemma AxisInside(start: real, length: real, whole: real, side: real)
    requires side > 0.0 && whole > 0.0
    requires 0.0 <= start && 0.0 <= length && start + length <= whole
    ensures 0.0 <= Rescale(start, whole, side)
    ensures 0.0 <= Rescale(length, whole, side)
    ensures Rescale(start, whole, side) + Rescale(length, whole, side) <= side
  {
    assert Rescale(start, whole, side) + Rescale(length, whole, side) == side * ((start + length) / whole);
    assert (start + length) / whole <= 1.0;
  }

  /** At rest (no overscroll) the crop region lies inside the image. */
  lemma InsideAtRest(imageSize: Size, offset: Offset, scaled: Size, cropBox: Size)
    requires IsPositive(imageSize) && IsPositive(scaled)
    requires 0.0 <= offset.x && 0.0 <= cropBox.width && offset.x + cropBox.width <= scaled.width
    requires 0.0 <= offset.y && 0.0 <= cropBox.height && offset.y + cropBox.height <= scaled.height
    ensures var r := ToImage(imageSize, offset, scaled, cropBox);
      && 0.0 <= r.offset.x && 0.0 <= r.size.width && r.offset.x + r.size.width <= imageSize.width
      && 0.0 <= r.offset.y && 0.0 <= r.size.height && r.offset.y + r.size.height <= imageSize.height
  {
    AxisInside(offset.x, cropBox.width, scaled.width, imageSize.width);
    AxisInside(offset.y, cropBox.height, scaled.height, imageSize.height);
  }

  /** One axis of the centring argument: a span centred in the content maps
      to a span centred in the image. */
  lemma AxisCentred(start: real, length: real, whole: real, side: real)
    requires whole > 0.0
    requires 2.0 * start + length == whole
    ensures 2.0 * Rescale(start, whole, side) + Rescale(length, whole, side) == side
  {
    assert 2.0 * Rescale(start, whole, side) + Rescale(length, whole, side) == side * ((2.0 * start + length) / whole);
  }

  /** When `whole` magnified by `zoom` is `side`, rescaling is magnifying. */
  lemma AxisZoom(v: real, whole: real, side: real, zoom: real)
    requires whole > 0.0
    requires whole * zoom == side
    ensures Rescale(v, whole, side) == v * zoom
  {
    assert side * (v / whole) == zoom * (whole * (v / whole));
  }

  /** The region emitted when an editor mounts: the centred offset of the fit
      on the scaled image, with the whole viewport as crop box. */
  function InitialRegion(imageSize: Size, size: Size): (r: Region)
    requires IsPositive(imageSize) && IsPositive(size)
    // centred in the image
    ensures 2.0 * r.offset.x + r.size.width == imageSize.width
    ensures 2.0 * r.offset.y + r.size.height == imageSize.height
    // inside the image
    ensures 0.0 <= r.offset.x && r.offset.x + r.size.width <= imageSize.width
    ensures 0.0 <= r.offset.y && r.offset.y + r.size.height <= imageSize.height
    // the viewport measured in image pixels: it is magnified by the maximum zoom
    ensures r.size.width == size.width * CoverFit.Cover(imageSize, size).maximumZoomScale
    ensures r.size.height == size.height * CoverFit.Cover(imageSize, size).maximumZoomScale
  {
    var fit := CoverFit.Cover(imageSize, size);
    AxisInside(fit.contentOffset.x, size.width, fit.scaled.width, imageSize.width);
    AxisInside(fit.contentOffset.y, size.height, fit.scaled.height, imageSize.height);
    AxisCentred(fit.contentOffset.x, size.width, fit.scaled.width, imageSize.width);
    AxisCentred(fit.contentOffset.y, size.height, fit.scaled.height, imageSize.height);
    AxisZoom(size.width, fit.scaled.width, imageSize.width, fit.maximumZoomScale);
    AxisZoom(size.height, fit.scaled.height, imageSize.height, fit.maximumZoomScale);
    ToImage(imageSize, fit.contentOffset, fit.scaled, size)
  }

  /** A 2352x1882 photo in a 300x300 crop box: the first report is the
      centred 1882-pixel square, 235 pixels in from the left edge. */
  lemma SquareBoxScenario()
    ensures CoverFit.Cover(Size(2352.0, 1882.0), Size(300.0, 300.0)).horizontal
    ensures InitialRegion(Size(2352.0, 1882.0), Size(300.0, 300.0))
         == Region(Offset(235.0, 0.0), Size(1882.0, 1882.0))
  {
    var fit := CoverFit.Cover(Size(2352.0, 1882.0), Size(300.0, 300.0));
    assert fit.maximumZoomScale == 1882.0 / 300.0;
  }
}

=== FILE: cropper_shell.dfy ===
/** The wrapper component of src/ImageCropper.ios.js: it measures a square
    viewport, resolves the image size, mounts the editor once both are known,
    keeps the editor's last crop data, and hands it to the native cropper.
    The `SquareImageCropper` class of ImageCropper.js has the same code for
    all of this except `reset` (see module SquareCropper).
    Native calls are not made here: a step returns the request it would send,
    and a callback arriving later is its own event. */
module CropperShell {
  import opened Types
  import CropTransform

  datatype Shell = Shell(
    image: Option<ImageSource>,      // props.image
    measuredSize: Option<Size>,      // state.measuredSize
    imageSize: Option<Size>,         // state.imageSize
    transformData: Option<CropData>, // last report of the editor
    keyAccumulator: nat,             // state.keyAccumulator, the editor's key
    croppedImageURI: Option<string>,
    cropError: Option<string>,
    editorMounted: bool)             // the editor ref is set

  /** What `updateImageSize` ends up doing. */
  datatype SizeRequest =
    | UsedDeclared         // both declared dimensions were truthy
    | LookUp(uri: string)  // `Image.getSize(uri, ...)` was called
    | LookUpUnavailable    // `Image.getSize` is not a function here
    | StaticAsset          // no usable uri: nothing happens
    | ThrowsTypeError      // `this.props.image.width` on a missing image

  /** The call to the native cropper, with the resize that follows it. */
  datatype CropRequest = CropRequest(
    uri: Option<string>,
    cropData: CropData,
    resizeWidth: real,
    resizeHeight: real,
    format: string,
    quality: int,
    rotation: int)

  /** The constructor's state. */
  function Initial(image: Option<ImageSource>): (w: Shell)
    ensures w.image == image
    ensures w.measuredSize.None? && w.imageSize.None? && w.transformData.None?
    ensures w.keyAccumulator == 0 && !w.editorMounted
    ensures w.croppedImageURI.None? && w.cropError.None?
  {
    Shell(image, None, None, None, 0, None, None, false)
  }

  /** `isSameSource`: the identical prop, or two sources with the same
      non-empty uri. */
  function IsSameSource(current: Option<ImageSource>, next: Option<ImageSource>): (same: bool)
    // the identical prop, a missing one included
    ensures current == next ==> same
    // a missing source is the same only as another missing source
    ensures current.None? || next.None? ==> (same <==> current == next)
    // distinct present sources need equal non-empty uris
    ensures current.Some? && next.Some? && current != next ==>
      (same <==> StringTruthy(current.value.uri) && current.value.uri == next.value.uri)
  {
    || current == next
    || (current.Some? && next.Some? && StringTruthy(current.value.uri) && StringTruthy(next.value.uri)
        && current.value.uri.value == next.value.uri.value)
  }

  /** Sources that are not the same object are the same source exactly when
      both carry a non-empty uri and the uris agree; a missing uri on either
      side makes them different. */
  lemma SameSourceByUri(current: ImageSource, next: ImageSource)
    requires current != next
    ensures IsSameSource(Some(current), Some(next))
        <==> current.uri.Some? && next.uri.Some? && current.uri.value != "" && current.uri == next.uri
    ensures current.uri.None? || next.uri.None? ==> !IsSameSource(Some(current), Some(next))
  {
  }

  /** `isSameSource` is an equivalence: reflexive, symmetric and transitive. */
  lemma SameSourceIsEquivalence(a: Option<ImageSource>, b: Option<ImageSource>, c: Option<ImageSource>)
    ensures IsSameSource(a, a)
    ensures IsSameSource(a, b) <==> IsSameSource(b, a)
    ensures IsSameSource(a, b) && IsSameSource(b, c) ==> IsSameSource(a, c)
  {
  }

  /** `renderImageEditor`'s gate: the editor is rendered only when the image,
      its size and the measured viewport are all known. */
  predicate ShowsEditor(w: Shell) {
    w.image.Some? && w.imageSize.Some? && w.measuredSize.Some?
  }

  /** Sizes held are positive (the model does not follow negative sizes),
      and the measured viewport is square. */
  predicate SizesPositive(w: Shell) {
    && (w.imageSize.Some? ==> IsPositive(w.imageSize.value))
    && (w.measuredSize.Some? ==> IsPositive(w.measuredSize.value)
                                 && w.measuredSize.value.width == w.measuredSize.value.height)
  }

  /** The consistency every handler keeps: the editor is mounted exactly
      while the gate is open, and crop data is held exactly while it is
      mounted. */
  predicate Inv(w: Shell) {
    && SizesPositive(w)
    && (w.editorMounted <==> ShowsEditor(w))
    && (w.transformData.Some? <==> w.editorMounted)
  }

  /** Re-render after a state change: mount the editor when the gate opens
      (its `componentWillMount` reports the centred, unrotated crop at once),
      unmount it when the gate closes. The gate only closes together with a
      source change, which has already dropped the crop data. */
  function Render(w: Shell): (r: Shell)
    requires SizesPositive(w)
    requires w.transformData.Some? ==> w.editorMounted && ShowsEditor(w)
    requires w.editorMounted && ShowsEditor(w) ==> w.transformData.Some?
    ensures Inv(r)
    ensures r.editorMounted <==> ShowsEditor(w)
    ensures ShowsEditor(w) && !w.editorMounted ==>
      r.transformData == Some(CropData(CropTransform.InitialRegion(w.imageSize.value, w.measuredSize.value).offset,
                                       CropTransform.InitialRegion(w.imageSize.value, w.measuredSize.value).size, 0))
    ensures ShowsEditor(w) && w.editorMounted ==> r == w
    ensures r.(editorMounted := w.editorMounted, transformData := w.transformData) == w
  {
    if ShowsEditor(w) && !w.editorMounted then
      var region := CropTransform.InitialRegion(w.imageSize.value, w.measuredSize.value);
      w.(editorMounted := true, transformData := Some(CropData(region.offset, region.size, 0)))
    else if !ShowsEditor(w) then
      w.(editorMounted := false)
    else
      w
  }

  /** Under the handlers' consistency a re-render changes nothing, so the
      handlers that leave the image, its size and the measured viewport
      alone need not re-render. */
  lemma RenderIdleUnderInv(w: Shell)
    requires Inv(w)
    ensures Render(w) == w
  {
  }

  /** `componentWillReceiveProps`: a different source drops the crop data
      and the image size and bumps the editor key (so a fresh editor mounts
      later); the same source keeps all three. */
  function ReceiveProps(w: Shell, next: Option<ImageSource>): (r: Shell)
    requires Inv(w)
    ensures Inv(r)
    ensures r.image == next
    ensures !IsSameSource(w.image, next) ==>
      r.transformData.None? && r.imageSize.None? && r.keyAccumulator == w.keyAccumulator + 1 && !r.editorMounted
    ensures IsSameSource(w.image, next) ==>
      r.transformData == w.transformData && r.imageSize == w.imageSize && r.keyAccumulator == w.keyAccumulator
    ensures r.measuredSize == w.measuredSize
    ensures r.croppedImageURI == w.croppedImageURI && r.cropError == w.cropError
  {
    if !IsSameSource(w.image, next) then
      Render(w.(image := next, transformData := None, imageSize := None, keyAccumulator := w.keyAccumulator + 1))
    else
      Render(w.(image := next))
  }

  /** Declared dimensions are not negative. */
  predicate DeclaredSizeOk(image: Option<ImageSource>) {
    image.Some? ==>
      && (image.value.width.Some? ==> image.value.width.value >= 0.0)
      && (image.value.height.Some? ==> image.value.height.value >= 0.0)
  }

  /** `updateImageSize`: use the declared dimensions when both are truthy,
      otherwise ask `Image.getSize` for the uri (when there is a non-empty
      uri and the lookup exists). */
  function UpdateImageSize(w: Shell, getSizeAvailable: bool): (r: (Shell, SizeRequest))
    requires Inv(w) && DeclaredSizeOk(w.image)
    ensures Inv(r.0)
    ensures w.image.None? ==> r.1 == ThrowsTypeError && r.0 == w
    ensures r.1 == ThrowsTypeError <==> w.image.None?
    ensures w.image.Some? && NumberTruthy(w.image.value.width) && NumberTruthy(w.image.value.height) ==>
      r.1 == UsedDeclared && r.0.imageSize == Some(Size(w.image.value.width.value, w.image.value.height.value))
    ensures r.1 == UsedDeclared <==>
      w.image.Some? && NumberTruthy(w.image.value.width) && NumberTruthy(w.image.value.height)
    // the declared size changes only the image size and, through it, the editor gate
    ensures r.1 == UsedDeclared ==>
      r.0.(editorMounted := w.editorMounted, transformData := w.transformData, imageSize := w.imageSize) == w
    ensures r.1 != UsedDeclared ==> r.0 == w
    ensures r.1.LookUp? <==>
      w.image.Some? && !(NumberTruthy(w.image.value.width) && NumberTruthy(w.image.value.height))
      && StringTruthy(w.image.value.uri) && getSizeAvailable
    ensures r.1.LookUp? ==> r.1.uri == w.image.value.uri.value
    ensures r.1 == LookUpUnavailable <==>
      w.image.Some? && !(NumberTruthy(w.image.value.width) && NumberTruthy(w.image.value.height))
      && StringTruthy(w.image.value.uri) && !getSizeAvailable
    ensures r.1 == StaticAsset <==>
      w.image.Some? && !(NumberTruthy(w.image.value.width) && NumberTruthy(w.image.value.height))
      && !StringTruthy(w.image.value.uri)
  {
    if w.image.None? then (w, ThrowsTypeError)
    else if !NumberTruthy(w.image.value.width) || !NumberTruthy(w.image.value.height) then
      if StringTruthy(w.image.value.uri) then
        if getSizeAvailable then (w, LookUp(w.image.value.uri.value)) else (w, LookUpUnavailable)
      else (w, StaticAsset)
    else
      (Render(w.(imageSize := Some(Size(w.image.value.width.value, w.image.value.height.value)))), UsedDeclared)
  }

  /** `componentWillReceiveProps` together with its `setState` callback: a
      changed source is followed by `updateImageSize` on the new props, whose
      request is returned; the same source asks for nothing. */
  function ReceivePropsAndResize(w: Shell, next: Option<ImageSource>, getSizeAvailable: bool)
    : (r: (Shell, Option<SizeRequest>))
    requires Inv(w) && DeclaredSizeOk(next)
    ensures Inv(r.0)
    ensures r.0.image == next
    ensures r.1.Some? <==> !IsSameSource(w.image, next)
    ensures IsSameSource(w.image, next) ==> r.0 == ReceiveProps(w, next)
    ensures !IsSameSource(w.image, next) ==>
      (r.0, r.1.value) == UpdateImageSize(ReceiveProps(w, next), getSizeAvailable)
    // a new source with both dimensions declared is sized at once, under a new key
    ensures !IsSameSource(w.image, next) && next.Some? && NumberTruthy(next.value.width) && NumberTruthy(next.value.height) ==>
      && r.1 == Some(UsedDeclared)
      && r.0.imageSize == Some(Size(next.value.width.value, next.value.height.value))
      && r.0.keyAccumulator == w.keyAccumulator + 1
  {
    var received := ReceiveProps(w, next);
    if IsSameSource(w.image, next) then (received, None)
    else
      var (resized, request) := UpdateImageSize(received, getSizeAvailable);
      (resized, Some(request))
  }

  /** The success callback of `Image.getSize`: keep the size only when both
      dimensions are truthy. */
  function ImageSizeResolved(w: Shell, width: real, height: real): (r: Shell)
    requires Inv(w) && width >= 0.0 && height >= 0.0
    ensures Inv(r)
    ensures width != 0.0 && height != 0.0 ==> r.imageSize == Some(Size(width, height))
    ensures r.(editorMounted := w.editorMounted, transformData := w.transformData, imageSize := w.imageSize) == w
    ensures width == 0.0 || height == 0.0 ==> r == w
  {
    if width != 0.0 && height != 0.0 then Render(w.(imageSize := Some(Size(width, height)))) else w
  }

  /** The `onLayout` handler, rendered only while nothing is measured: a
      zero width is ignored, any other width gives a square viewport. */
  function OnLayout(w: Shell, measuredWidth: real): (r: Shell)
    requires Inv(w) && measuredWidth >= 0.0
    ensures Inv(r)
    ensures w.measuredSize.None? && measuredWidth != 0.0 ==>
      r.measuredSize == Some(Size(measuredWidth, measuredWidth))
    ensures r.(editorMounted := w.editorMounted, transformData := w.transformData, measuredSize := w.measuredSize) == w
    ensures w.measuredSize.Some? || measuredWidth == 0.0 ==> r == w
  {
    if w.measuredSize.Some? || measuredWidth == 0.0 then w
    else Render(w.(measuredSize := Some(Size(measuredWidth, measuredWidth))))
  }

  /** `onTransformDataChange`: the mounted editor reports new crop data. */
  function TransformDataChanged(w: Shell, data: CropData): (r: Shell)
    requires Inv(w)
    ensures Inv(r)
    ensures w.editorMounted ==> r == w.(transformData := Some(data))
    ensures !w.editorMounted ==> r == w
  {
    if w.editorMounted then w.(transformData := Some(data)) else w
  }

  /** `crop`: nothing happens without an image, crop data or a measured
      viewport; otherwise the native cropper gets the last crop data, and
      the result is resized to the viewport as PNG at quality 100 with the
      crop data's rotation. */
  function Crop(w: Shell): (r: Option<CropRequest>)
    ensures r.None? <==> w.image.None? || w.transformData.None? || w.measuredSize.None?
    ensures r.Some? ==> && r.value.uri == w.image.value.uri
                        && r.value.cropData == w.transformData.value
                        && r.value.resizeWidth == w.measuredSize.value.width
                        && r.value.resizeHeight == w.measuredSize.value.height
                        && r.value.rotation == w.transformData.value.rotation
                        && r.value.format == "PNG" && r.value.quality == 100
  {
    if w.image.None? || w.transformData.None? || w.measuredSize.None? then None
    else
      var data := w.transformData.value;
      Some(CropRequest(w.image.value.uri, data, w.measuredSize.value.width, w.measuredSize.value.height,
                       "PNG", 100, data.rotation))
  }

  /** With the handlers' consistency, `crop` reaches the native cropper
      exactly when an editor is mounted, and then its request is a square. */
  lemma CropIffEditorMounted(w: Shell)
    requires Inv(w)
    ensures Crop(w).Some? <==> w.editorMounted
    ensures Crop(w).Some? ==> Crop(w).value.resizeWidth == Crop(w).value.resizeHeight
  {
  }

  /** The resize callback: keep the resized uri and release the intermediate
      cropped image (the returned tag). */
  function CropSucceeded(w: Shell, resizedUri: string, croppedTag: string): (r: (Shell, string))
    requires Inv(w)
    ensures Inv(r.0)
    ensures r.0 == w.(croppedImageURI := Some(resizedUri)) && r.1 == croppedTag
  {
    (w.(croppedImageURI := Some(resizedUri)), croppedTag)
  }

  /** The native cropper's error callback. */
  function CropFailed(w: Shell, message: string): (r: Shell)
    requires Inv(w)
    ensures Inv(r)
    ensures r == w.(cropError := Some(message))
  {
    w.(cropError := Some(message))
  }

  /** `reset(animateZoom, animateRotation)` of src/ImageCropper.ios.js:
      release the stored crop (when the uri is non-empty), clear the cropped
      uri and the error, and pass both flags on to the editor's `reset` when
      one is mounted. The result holds the new state, the uri released and
      the flags forwarded. */
  function Reset(w: Shell, animateZoom: Option<bool>, animateRotation: Option<bool>)
    : (r: (Shell, Option<string>, Option<(Option<bool>, Option<bool>)>))
    requires Inv(w)
    ensures Inv(r.0)
    ensures r.0.croppedImageURI.None? && r.0.cropError.None?
    ensures r.0.(croppedImageURI := w.croppedImageURI, cropError := w.cropError) == w
    ensures r.1.Some? <==> StringTruthy(w.croppedImageURI)
    ensures r.1.Some? ==> r.1 == w.croppedImageURI
    ensures r.2.Some? <==> w.editorMounted
    ensures r.2.Some? ==> r.2.value == (animateZoom, animateRotation)
  {
    (w.(croppedImageURI := None, cropError := None),
     if StringTruthy(w.croppedImageURI) then w.croppedImageURI else None,
     if w.editorMounted then Some((animateZoom, animateRotation)) else None)
  }

  /** `rotate`: forwarded to the editor when one is mounted, otherwise a
      no-op; the wrapper's own state never changes. */
  function Rotate(w: Shell): (forwarded: bool)
    ensures forwarded <==> w.editorMounted
  {
    w.editorMounted
  }

  /** A sequence of props: how many of them change the source. */
  function SourceChanges(current: Option<ImageSource>, props: seq<Option<ImageSource>>): nat
    decreases |props|
  {
    if |props| == 0 then 0
    else (if IsSameSource(current, props[0]) then 0 else 1) + SourceChanges(props[0], props[1..])
  }

  function ReceiveAll(w: Shell, props: seq<Option<ImageSource>>): (r: Shell)
    requires Inv(w)
    ensures Inv(r)
    decreases |props|
  {
    if |props| == 0 then w else ReceiveAll(ReceiveProps(w, props[0]), props[1..])
  }

  /** The editor key counts source changes exactly: it rises by one per
      changed source and never otherwise. */
  lemma {:induction false} KeyCountsSourceChanges(w: Shell, props: seq<Option<ImageSource>>)
    requires Inv(w)
    ensures ReceiveAll(w, props).keyAccumulator == w.keyAccumulator + SourceChanges(w.image, props)
    decreases |props|
  {
    if |props| > 0 {
      KeyCountsSourceChanges(ReceiveProps(w, props[0]), props[1..]);
    }
  }
}

=== FILE: cropper_view.dfy ===
/** The inner `ImageCropper` class of ImageCropper.js: the same fit and
    crop map as src/ImageEditor.js, but rotation is reported with `||`
    (an explicit 0 falls back to the state rotation), is never normalised,
    and the report after a rotation always uses the initial centred view. */
module CropperView {
  import opened Types
  import CoverFit
  import CropTransform
  import DoubleTap

  datatype View = View(
    imageSize: Size,            // props.imageSize
    size: Size,                 // props.size: the crop box
    fit: CoverFit.Fit,          // fixed at mount
    rotation: int,              // state.rotation
    lastTapTime: Option<real>,
    scrollViewAttached: bool)   // the scroll view ref has been set

  /** The next view state and the crop data reported, if any. */
  datatype Step = Step(next: View, reported: Option<CropData>, zoomOut: bool)

  ghost predicate Valid(v: View) {
    IsPositive(v.imageSize) && IsPositive(v.size) && v.fit == CoverFit.Cover(v.imageSize, v.size)
  }

  /** `rotation || this.state.rotation`: a missing or zero argument falls
      back to the state rotation. */
  function ReportedRotation(v: View, rotation: Option<int>): (r: int)
    ensures rotation.Some? && rotation.value != 0 ==> r == rotation.value
    ensures rotation.None? || rotation.value == 0 ==> r == v.rotation
  {
    if rotation.Some? && rotation.value != 0 then rotation.value else v.rotation
  }

  /** `updateTransformData`: the same linear map as the editor's; nothing is
      remembered. */
  function UpdateTransformData(v: View, offset: Offset, scaled: Size, cropBox: Size, rotation: Option<int>): (s: Step)
    requires scaled.width != 0.0 && scaled.height != 0.0
    ensures s.next == v && !s.zoomOut && s.reported.Some?
    ensures var r := CropTransform.ToImage(v.imageSize, offset, scaled, cropBox);
      s.reported.value.offset == r.offset && s.reported.value.size == r.size
    ensures s.reported.value.rotation == ReportedRotation(v, rotation)
  {
    var r := CropTransform.ToImage(v.imageSize, offset, scaled, cropBox);
    Step(v, Some(CropData(r.offset, r.size, ReportedRotation(v, rotation))), false)
  }

  /** `componentWillMount`: fit the image and report the centred crop. */
  function Mount(imageSize: Size, size: Size): (s: Step)
    requires IsPositive(imageSize) && IsPositive(size)
    ensures Valid(s.next)
    ensures s.next.imageSize == imageSize && s.next.size == size && !s.zoomOut
    ensures s.next.rotation == 0 && s.next.lastTapTime.None? && !s.next.scrollViewAttached
    ensures s.reported == Some(CropData(CropTransform.InitialRegion(imageSize, size).offset,
                                        CropTransform.InitialRegion(imageSize, size).size, 0))
    // the fit gives the editor's guarantees
    ensures s.next.fit.scaled.width >= size.width && s.next.fit.scaled.height >= size.height
    ensures 2.0 * s.next.fit.contentOffset.x + size.width == s.next.fit.scaled.width
    ensures 2.0 * s.next.fit.contentOffset.y + size.height == s.next.fit.scaled.height
    ensures s.next.fit.minimumZoomScale == 1.0
    ensures s.next.fit.maximumZoomScale
         == Min(CoverFit.WidthRatio(imageSize, size), CoverFit.HeightRatio(imageSize, size))
  {
    var fit := CoverFit.Cover(imageSize, size);
    var v := View(imageSize, size, fit, 0, None, false);
    UpdateTransformData(v, fit.contentOffset, fit.scaled, size, None)
  }

  /** `onScroll`: report the settled view with the state rotation. */
  function OnScroll(v: View, contentOffset: Offset, contentSize: Size, layoutMeasurement: Size): (s: Step)
    requires contentSize.width != 0.0 && contentSize.height != 0.0
    ensures s.next == v && !s.zoomOut
    // the event's view mapped into image coordinates, with the state rotation
    ensures var r := CropTransform.ToImage(v.imageSize, contentOffset, contentSize, layoutMeasurement);
      s.reported == Some(CropData(r.offset, r.size, v.rotation))
  {
    UpdateTransformData(v, contentOffset, contentSize, layoutMeasurement, None)
  }

  /** `rotateImage`, through to the completion callback: add 90 degrees and
      report the initial centred crop, whatever has been scrolled since. */
  function RotateImage(v: View): (s: Step)
    requires Valid(v)
    ensures s.next == v.(rotation := v.rotation + 90) && !s.zoomOut
    ensures s.reported == Some(CropData(CropTransform.InitialRegion(v.imageSize, v.size).offset,
                                        CropTransform.InitialRegion(v.imageSize, v.size).size, v.rotation + 90))
  {
    var rotated := v.(rotation := v.rotation + 90);
    UpdateTransformData(rotated, v.fit.contentOffset, v.fit.scaled, v.size, None)
  }

  /** `detectDoubleTap`: zoom out (if the scroll view is attached) on a tap
      within the window of the previous one; always record the tap. */
  function DetectDoubleTap(v: View, thisTapTime: real): (r: (Step, bool))
    ensures r.0.next == v.(lastTapTime := Some(thisTapTime))
    ensures r.0.zoomOut <==> DoubleTap.Follows(v.lastTapTime, thisTapTime) && v.scrollViewAttached
    ensures r.0.reported.None? && !r.1
  {
    var o := DoubleTap.Detect(v.lastTapTime, thisTapTime);
    (Step(v.(lastTapTime := o.lastTapTime), None, o.resetZoom && v.scrollViewAttached), o.claimsResponder)
  }

  /** The scroll view's `ref` callback: from then on a zoom-out can reach
      it. */
  function AttachScrollView(v: View): View {
    v.(scrollViewAttached := true)
  }

  /** Two taps after mounting zoom out exactly when the first is non-zero,
      the second follows within the window, and the scroll view has been
      attached in between. */
  lemma DoubleTapNeedsScrollView(imageSize: Size, size: Size, attached: bool, t1: real, t2: real)
    requires IsPositive(imageSize) && IsPositive(size)
    ensures var mounted := Mount(imageSize, size).next;
      var v := if attached then AttachScrollView(mounted) else mounted;
      var first := DetectDoubleTap(v, t1).0;
      && !first.zoomOut
      && (DetectDoubleTap(first.next, t2).0.zoomOut <==> attached && t1 != 0.0 && t2 - t1 <= DoubleTap.Window)
  {
  }

  function Rotations(v: View, n: nat): View
    requires Valid(v)
    ensures Valid(Rotations(v, n))
    decreases n
  {
    if n == 0 then v else Rotations(RotateImage(v).next, n - 1)
  }

  /** `n` rotations add exactly `90 * n` degrees: nothing wraps round, so
      four turns report 360, not 0. */
  lemma {:induction false} RotationsAccumulate(v: View, n: nat)
    requires Valid(v)
    ensures Rotations(v, n).rotation == v.rotation + 90 * n
    ensures Rotations(v, n) == v.(rotation := v.rotation + 90 * n)
    decreases n
  {
    if n > 0 {
      RotationsAccumulate(RotateImage(v).next, n - 1);
    }
  }

  /** After four rotations from mount the reported rotation is 360. */
  lemma FourRotationsReport360(imageSize: Size, size: Size)
    requires IsPositive(imageSize) && IsPositive(size)
    ensures var m := Mount(imageSize, size).next;
      RotateImage(Rotations(m, 3)).reported.value.rotation == 360
  {
    RotationsAccumulate(Mount(imageSize, size).next, 3);
  }

  /** A rotation discards the scroll: after scrolling anywhere, the report
      that follows a rotation is the mount-time centred crop. */
  lemma RotationForgetsScroll(v: View, contentOffset: Offset, contentSize: Size, layoutMeasurement: Size)
    requires Valid(v)
    requires contentSize.width != 0.0 && contentSize.height != 0.0
    ensures var scrolled := OnScroll(v, contentOffset, contentSize, layoutMeasurement);
      var rotated := RotateImage(scrolled.next);
      && rotated.reported.value.offset == CropTransform.InitialRegion(v.imageSize, v.size).offset
      && rotated.reported.value.size == CropTransform.InitialRegion(v.imageSize, v.size).size
  {
  }

  /** The `||` fallback: with state rotation 90, an explicit 0 is reported
      as 90 here, where src/ImageEditor.js reports 0. */
  lemma ExplicitZeroFallsBack(v: View, offset: Offset, scaled: Size, cropBox: Size)
    requires scaled.width != 0.0 && scaled.height != 0.0
    requires v.rotation == 90
    ensures UpdateTransformData(v, offset, scaled, cropBox, Some(0)).reported.value.rotation == 90
  {
  }
}

=== FILE: double_tap.dfy ===
/** The double-tap detector shared by both editors: a single `lastTapTime`
    slot and a fixed window. */
module DoubleTap {
  import opened Types

  /** Taps at most this many milliseconds apart form a double tap. */
  const Window: real := 300.0

  datatype Outcome = Outcome(
    lastTapTime: Option<real>,  // the slot after the tap
    resetZoom: bool,            // the handler asked for a zoom reset
    claimsResponder: bool)      // the handler's return value

  /** `lastTapTime && thisTapTime - lastTapTime <= 300`: a missing slot and a
      recorded time of 0 are both falsy, so neither counts as a first tap. */
  predicate Follows(lastTapTime: Option<real>, thisTapTime: real) {
    NumberTruthy(lastTapTime) && thisTapTime - lastTapTime.value <= Window
  }

  /** One tap: reset the zoom if it follows the recorded tap closely
      enough, then record it. The handler never claims the responder. */
  function Detect(lastTapTime: Option<real>, thisTapTime: real): (o: Outcome)
    ensures o.resetZoom <==> lastTapTime.Some? && lastTapTime.value != 0.0
                              && thisTapTime - lastTapTime.value <= Window
    ensures o.lastTapTime == Some(thisTapTime)
    ensures !o.claimsResponder
  {
    Outcome(Some(thisTapTime), Follows(lastTapTime, thisTapTime), false)
  }

  /** Feeding taps one after another: the final slot and the number of
      zoom resets requested. */
  function Replay(lastTapTime: Option<real>, taps: seq<real>): (r: (Option<real>, nat))
    ensures |taps| > 0 ==> r.0 == Some(taps[|taps| - 1])
    ensures |taps| == 0 ==> r.0 == lastTapTime
    ensures r.1 <= |taps|
    decreases |taps|
  {
    if |taps| == 0 then (lastTapTime, 0)
    else
      var o := Detect(lastTapTime, taps[0]);
      var rest := Replay(o.lastTapTime, taps[1..]);
      (rest.0, rest.1 + if o.resetZoom then 1 else 0)
  }

  /** The tap recorded just before tap `i`. */
  function Before(lastTapTime: Option<real>, taps: seq<real>, i: nat): Option<real>
    requires i < |taps|
  {
    if i == 0 then lastTapTime else Some(taps[i - 1])
  }

  /** Reference count: how many taps follow their immediate predecessor
      within the window, counted from the end of the sequence. */
  function PairsWithin(lastTapTime: Option<real>, taps: seq<real>): nat
    decreases |taps|
  {
    if |taps| == 0 then 0
    else
      PairsWithin(lastTapTime, taps[..|taps| - 1])
      + if Follows(Before(lastTapTime, taps, |taps| - 1), taps[|taps| - 1]) then 1 else 0
  }

  /** Because the slot keeps only the latest tap, every tap is compared
      with its immediate predecessor and nothing older: the resets counted
      by replaying the taps are exactly the close consecutive pairs. */
  lemma {:induction false} ReplayCountsClosePairs(lastTapTime: Option<real>, taps: seq<real>)
    ensures Replay(lastTapTime, taps).1 == PairsWithin(lastTapTime, taps)
    decreases |taps|
  {
    if |taps| > 0 {
      ReplayCountsClosePairs(Some(taps[0]), taps[1..]);
      PairsWithinShift(lastTapTime, taps);
    }
  }

  /** Splitting off the first tap on the reference side. */
  lemma {:induction false} PairsWithinShift(lastTapTime: Option<real>, taps: seq<real>)
    requires |taps| > 0
    ensures PairsWithin(lastTapTime, taps)
         == PairsWithin(Some(taps[0]), taps[1..]) + if Follows(lastTapTime, taps[0]) then 1 else 0
    decreases |taps|
  {
    if |taps| == 1 {
      assert taps[1..] == [];
      assert taps[..0] == [];
    } else {
      var front := taps[..|taps| - 1];
      PairsWithinShift(lastTapTime, front);
      assert front[1..] == taps[1..][..|taps| - 2];
      assert front[0] == taps[0];
      assert Before(lastTapTime, taps, |taps| - 1) == Before(Some(taps[0]), taps[1..], |taps| - 2);
    }
  }

  /** Two taps from a fresh slot: exactly one reset when the second comes
      within the window of a non-zero first, none otherwise. */
  lemma TwoTaps(first: real, second: real)
    ensures Replay(None, [first, second]).1 == (if first != 0.0 && second - first <= Window then 1 else 0)
  {
    assert [first, second][1..] == [second];
    assert [second][1..] == [];
  }
}

=== FILE: image_editor.dfy ===
/** The editor view of src/ImageEditor.js: mounts with the cover fit, reports
    crop data whenever scrolling settles or a rotation completes, rotates by
    validated and normalised quarter turns, and resets zoom on a double tap.
    Animations and scroll physics are atomic: each event is its completion. */
module ImageEditor {
  import opened Types
  import CoverFit
  import CropTransform
  import Rotation
  import DoubleTap

  /** A programmatic zoom of the scroll view (`scrollResponderZoomTo`). */
  datatype ZoomRequest = ZoomRequest(x: real, y: real, width: real, height: real, animated: bool)

  datatype Editor = Editor(
    imageSize: Size,             // props.imageSize
    size: Size,                  // props.size: the crop box
    fit: CoverFit.Fit,           // fixed at mount
    rotation: int,               // state.rotation
    rotationShown: int,          // value of the rotation animation at rest
    lastTapTime: Option<real>,
    lastContentOffset: Offset,
    lastContentSize: Size,
    lastCropSize: Size,
    scrollViewAttached: bool)    // the scroll view ref has been set

  /** What one handler does: the next editor state, the crop data reported to
      `onTransformDataChange` (if any), a programmatic zoom (if any) and the
      target of a started rotation animation (if any). */
  datatype Step = Step(next: Editor, reported: Option<CropData>, zoom: Option<ZoomRequest>, animateTo: Option<int>)

  ghost predicate Valid(e: Editor) {
    && IsPositive(e.imageSize) && IsPositive(e.size)
    && e.fit == CoverFit.Cover(e.imageSize, e.size)
    && Rotation.IsReachable(e.rotation)
    && e.lastContentSize.width != 0.0 && e.lastContentSize.height != 0.0
  }

  /** The crop data for the last recorded scroll state and the state
      rotation. */
  function Current(e: Editor): CropData
    requires e.lastContentSize.width != 0.0 && e.lastContentSize.height != 0.0
  {
    var r := CropTransform.ToImage(e.imageSize, e.lastContentOffset, e.lastContentSize, e.lastCropSize);
    CropData(r.offset, r.size, e.rotation)
  }

  /** `updateTransformData`: report the crop for a scroll state, remembering
      that state. An explicit rotation is reported as given, 0 included; a
      missing one falls back to the state rotation. */
  function UpdateTransformData(e: Editor, offset: Offset, scaled: Size, cropBox: Size, rotation: Option<int>): (s: Step)
    requires scaled.width != 0.0 && scaled.height != 0.0
    ensures s.reported.Some?
    ensures var r := CropTransform.ToImage(e.imageSize, offset, scaled, cropBox);
      s.reported.value.offset == r.offset && s.reported.value.size == r.size
    ensures s.reported.value.rotation == if rotation.Some? then rotation.value else e.rotation
    ensures s.next == e.(lastContentOffset := offset, lastContentSize := scaled, lastCropSize := cropBox)
    ensures s.zoom.None? && s.animateTo.None?
  {
    var r := CropTransform.ToImage(e.imageSize, offset, scaled, cropBox);
    var data := CropData(r.offset, r.size, match rotation case Some(v) => v case None => e.rotation);
    Step(e.(lastContentOffset := offset, lastContentSize := scaled, lastCropSize := cropBox), Some(data), None, None)
  }

  /** `componentWillMount`: fit the image, remember the centred view as the
      last scroll state and report the initial crop. */
  function Mount(imageSize: Size, size: Size): (s: Step)
    requires IsPositive(imageSize) && IsPositive(size)
    ensures Valid(s.next)
    ensures s.next.imageSize == imageSize && s.next.size == size
    ensures s.zoom.None? && s.animateTo.None?
    ensures s.next.rotation == 0 && s.next.rotationShown == 0
    ensures s.next.lastTapTime.None? && !s.next.scrollViewAttached
    ensures s.next.lastContentOffset == s.next.fit.contentOffset
    ensures s.next.lastContentSize == s.next.fit.scaled
    ensures s.next.lastCropSize == size
    // the first report is the centred crop, unrotated
    ensures s.reported == Some(CropData(CropTransform.InitialRegion(imageSize, size).offset,
                                        CropTransform.InitialRegion(imageSize, size).size, 0))
    ensures 2.0 * s.reported.value.offset.x + s.reported.value.size.width == imageSize.width
    ensures 2.0 * s.reported.value.offset.y + s.reported.value.size.height == imageSize.height
  {
    var fit := CoverFit.Cover(imageSize, size);
    var e := Editor(imageSize, size, fit, 0, 0, None, fit.contentOffset, fit.scaled, size, false);
    UpdateTransformData(e, fit.contentOffset, fit.scaled, size, None)
  }

  /** `onScroll` (momentum end or drag end): report the settled view. */
  function OnScroll(e: Editor, contentOffset: Offset, contentSize: Size, layoutMeasurement: Size): (s: Step)
    requires Valid(e)
    requires contentSize.width != 0.0 && contentSize.height != 0.0
    // only the remembered scroll state changes, to the event's
    ensures s.next == e.(lastContentOffset := contentOffset, lastContentSize := contentSize,
                         lastCropSize := layoutMeasurement)
    ensures s.zoom.None? && s.animateTo.None?
    ensures Valid(s.next)
    ensures s.reported == Some(Current(s.next))
    ensures s.next.rotation == e.rotation
  {
    UpdateTransformData(e, contentOffset, contentSize, layoutMeasurement, None)
  }

  /** `rotateImage(toValue, animated)`, through to the completion callback:
      the state rotation becomes the normalised angle, the animation rests on
      it, and the crop is reported again from the last scroll state with
      only the rotation changed. */
  function RotateImage(e: Editor, toValue: Option<real>, animated: bool): (s: Step)
    requires Valid(e)
    ensures Valid(s.next)
    ensures s.next.rotation == Rotation.PlanRotation(e.rotation, toValue).normalized
    ensures s.next.rotationShown == s.next.rotation
    ensures s.next == e.(rotation := s.next.rotation, rotationShown := s.next.rotation)
    ensures s.reported == Some(Current(s.next))
    ensures s.reported.value.offset == Current(e).offset && s.reported.value.size == Current(e).size
    ensures animated <==> s.animateTo.Some?
    ensures animated ==> s.animateTo.value == Rotation.PlanRotation(e.rotation, toValue).animateTo
    ensures s.zoom.None?
  {
    var plan := Rotation.PlanRotation(e.rotation, toValue);
    var rotated := e.(rotation := plan.normalized, rotationShown := plan.normalized);
    var update := UpdateTransformData(rotated, e.lastContentOffset, e.lastContentSize, e.lastCropSize, Some(plan.normalized));
    update.(animateTo := if animated then Some(plan.animateTo) else None)
  }

  /** `resetZoom`: zoom the scroll view out to the whole scaled image, if
      the scroll view is attached. */
  function ResetZoom(e: Editor, animated: bool): (z: Option<ZoomRequest>)
    ensures z.Some? <==> e.scrollViewAttached
    ensures z.Some? ==> z.value.x == 0.0 && z.value.y == 0.0 && z.value.animated == animated
    ensures z.Some? ==> z.value.width == e.fit.scaled.width && z.value.height == e.fit.scaled.height
  {
    if e.scrollViewAttached then Some(ZoomRequest(0.0, 0.0, e.fit.scaled.width, e.fit.scaled.height, animated))
    else None
  }

  /** `resetRotation(animated)`: rotate to 0 (animated unless told otherwise). */
  function ResetRotation(e: Editor, animated: Option<bool>): (s: Step)
    requires Valid(e)
    ensures s.next == e.(rotation := 0, rotationShown := 0)
    ensures s.animateTo == (if animated == Some(false) then None else Some(0))
    ensures s.zoom.None?
    ensures s.reported.Some? && s.reported.value.rotation == 0
    ensures s.reported.value.offset == Current(e).offset && s.reported.value.size == Current(e).size
    ensures Valid(s.next)
  {
    Rotation.ResetTargetIsZero(e.rotation);
    RotateImage(e, Some(0.0), match animated case Some(a) => a case None => true)
  }

  /** `reset(animateZoom, animateRotation)`: zoom out and rotate back to 0;
      a missing flag means animated. */
  function Reset(e: Editor, animateZoom: Option<bool>, animateRotation: Option<bool>): (s: Step)
    requires Valid(e)
    ensures s.zoom.Some? <==> e.scrollViewAttached
    ensures s.zoom.Some? ==> s.zoom.value.animated == (animateZoom != Some(false))
    ensures s.zoom == ResetZoom(e, animateZoom != Some(false))
    ensures s.next == e.(rotation := 0, rotationShown := 0)
    ensures s.animateTo == (if animateRotation == Some(false) then None else Some(0))
    ensures s.reported.Some? && s.reported.value.rotation == 0
    ensures s.reported.value.offset == Current(e).offset && s.reported.value.size == Current(e).size
    ensures Valid(s.next)
  {
    var zoom := ResetZoom(e, match animateZoom case Some(a) => a case None => true);
    ResetRotation(e, animateRotation).(zoom := zoom)
  }

  /** `detectDoubleTap`: a tap within the window of the previous one resets
      the zoom (animated); every tap is recorded; the handler returns false. */
  function DetectDoubleTap(e: Editor, thisTapTime: real): (r: (Step, bool))
    ensures r.0.next == e.(lastTapTime := Some(thisTapTime))
    ensures r.0.zoom.Some? <==> DoubleTap.Follows(e.lastTapTime, thisTapTime) && e.scrollViewAttached
    ensures r.0.zoom.Some? ==> r.0.zoom.value.animated
    ensures r.0.zoom == (if DoubleTap.Follows(e.lastTapTime, thisTapTime) then ResetZoom(e, true) else None)
    ensures r.0.reported.None? && r.0.animateTo.None? && !r.1
  {
    var o := DoubleTap.Detect(e.lastTapTime, thisTapTime);
    (Step(e.(lastTapTime := o.lastTapTime), None, if o.resetZoom then ResetZoom(e, true) else None, None),
     o.claimsResponder)
  }

  /** Input events reaching a mounted editor. */
  datatype Event =
    | Scrolled(contentOffset: Offset, contentSize: Size, layoutMeasurement: Size)
    | Rotate(toValue: Option<real>, animated: bool)
    | Tapped(time: real)
    | ResetAll(animateZoom: Option<bool>, animateRotation: Option<bool>)
    | ScrollViewAttached

  /** The scroll view reports a non-degenerate content size. */
  predicate Deliverable(ev: Event) {
    ev.Scrolled? ==> ev.contentSize.width != 0.0 && ev.contentSize.height != 0.0
  }

  function Apply(e: Editor, ev: Event): (s: Step)
    requires Valid(e) && Deliverable(ev)
    ensures Valid(s.next)
    // every report is the crop of the state the editor is left in
    ensures s.reported.Some? ==> s.reported.value == Current(s.next)
  {
    match ev
    case Scrolled(o, c, l) => OnScroll(e, o, c, l)
    case Rotate(t, a) => RotateImage(e, t, a)
    case Tapped(t) => DetectDoubleTap(e, t).0
    case ResetAll(z, r) => Reset(e, z, r)
    case ScrollViewAttached => Step(e.(scrollViewAttached := true), None, None, None)
  }

  function Run(e: Editor, events: seq<Event>): Editor
    requires Valid(e)
    requires forall i :: 0 <= i < |events| ==> Deliverable(events[i])
    decreases |events|
  {
    if |events| == 0 then e else Run(Apply(e, events[0]).next, events[1..])
  }

  /** No event asks for a negative rotation target. */
  predicate NonNegativeTarget(ev: Event) {
    ev.Rotate? && ev.toValue.Some? ==> ev.toValue.value >= 0.0
  }

  /** With non-negative targets the state rotation stays in
      {0, 90, 180, 270}, whatever the events. */
  lemma {:induction false} RunKeepsNormalized(e: Editor, events: seq<Event>)
    requires Valid(e) && Rotation.IsNormalized(e.rotation)
    requires forall i :: 0 <= i < |events| ==> Deliverable(events[i]) && NonNegativeTarget(events[i])
    ensures Valid(Run(e, events))
    ensures Rotation.IsNormalized(Run(e, events).rotation)
    decreases |events|
  {
    if |events| > 0 {
      var s := Apply(e, events[0]);
      var plan := Rotation.PlanRotation(e.rotation, if events[0].Rotate? then events[0].toValue else Some(0.0));
      assert plan.newValue >= 0;
      assert Rotation.IsNormalized(s.next.rotation);
      RunKeepsNormalized(s.next, events[1..]);
    }
  }

  /** Four default rotations after mounting come back to 0 and report the
      same crop rectangle every time, the rotation cycling 90, 180, 270, 0. */
  lemma FourRotationsFromMount(imageSize: Size, size: Size)
    requires IsPositive(imageSize) && IsPositive(size)
    ensures var m := Mount(imageSize, size);
      var s1 := RotateImage(m.next, None, true);
      var s2 := RotateImage(s1.next, None, true);
      var s3 := RotateImage(s2.next, None, true);
      var s4 := RotateImage(s3.next, None, true);
      && s1.reported.value.rotation == 90
      && s2.reported.value.rotation == 180
      && s3.reported.value.rotation == 270
      && s4.reported.value.rotation == 0
      && s4.next.rotation == 0
      && s4.reported.value.offset == m.reported.value.offset
      && s4.reported.value.size == m.reported.value.size
  {
    Rotation.DefaultRotationCycles(0);
  }

  /** Rotating after a scroll keeps the scrolled crop: the report after the
      rotation differs from the scroll's report only in its rotation. */
  lemma RotationKeepsScrolledCrop(e: Editor, contentOffset: Offset, contentSize: Size, layoutMeasurement: Size, toValue: Option<real>)
    requires Valid(e)
    requires contentSize.width != 0.0 && contentSize.height != 0.0
    ensures var scrolled := OnScroll(e, contentOffset, contentSize, layoutMeasurement);
      var rotated := RotateImage(scrolled.next, toValue, true);
      && rotated.reported.value.offset == scrolled.reported.value.offset
      && rotated.reported.value.size == scrolled.reported.value.size
      && rotated.reported.value.rotation == Rotation.PlanRotation(e.rotation, toValue).normalized
  {
  }
}

=== FILE: rotation.dfy ===
/** Rotation arithmetic of the editors: target validation, the truncating
    JavaScript remainder, and the normalisation of src/ImageEditor.js. */
module Rotation {
  import opened Types

  /** JavaScript `a % b` for a positive divisor: the quotient is truncated
      toward zero, so the remainder takes the sign of `a` (unlike Dafny's
      Euclidean `%`, whose remainder is never negative). */
  function JsRem(a: int, b: int): (r: int)
    requires b > 0
    ensures a == b * JsQuot(a, b) + r
    ensures -b < r < b
    ensures a >= 0 ==> 0 <= r
    ensures a <= 0 ==> r <= 0
    ensures a >= 0 ==> r == a % b
  {
    if a >= 0 then a % b else -((-a) % b)
  }

  /** The quotient truncated toward zero that goes with `JsRem`. */
  function JsQuot(a: int, b: int): int
    requires b > 0
  {
    if a >= 0 then a / b else -((-a) / b)
  }

  /** `Number.isInteger(v / 90)`: the target is a whole number of quarter turns. */
  predicate IsQuarterTurns(v: real) {
    (v / 90.0).Floor as real == v / 90.0
  }

  /** What `rotateImage` decides before it animates. */
  datatype Plan = Plan(
    accepted: bool,   // the explicit target passed validation
    newValue: int,    // the requested angle, before normalisation
    normalized: int,  // the angle stored in state and emitted
    animateTo: int)   // the value the rotation animation runs towards

  /** The angles `((v / 90) % 4) * 90` can produce from a non-negative `v`. */
  predicate IsNormalized(rotation: int) {
    rotation == 0 || rotation == 90 || rotation == 180 || rotation == 270
  }

  /** A state rotation the editor can hold: a multiple of 90 strictly
      between -360 and 360. */
  predicate IsReachable(rotation: int) {
    rotation % 90 == 0 && -360 < rotation < 360
  }

  lemma QuarterTurnsExact(v: real)
    requires IsQuarterTurns(v)
    ensures ((v / 90.0).Floor * 90) as real == v
  {
  }

  /** `((newValue / 90) % 4) * 90` on a multiple of 90. */
  function Normalize(newValue: int): (r: int)
    requires newValue % 90 == 0
    ensures IsReachable(r)
    ensures (newValue - r) % 360 == 0
    ensures newValue >= 0 ==> IsNormalized(r)
    // the truncating remainder keeps the sign of a negative angle
    ensures newValue <= 0 ==> r <= 0
    ensures 0 <= newValue < 360 ==> r == newValue
    ensures -360 < newValue <= 0 ==> r == newValue
  {
    var q := newValue / 90;
    assert newValue == q * 90;
    var rem := JsRem(q, 4);
    assert newValue - rem * 90 == 360 * JsQuot(q, 4);
    rem * 90
  }

  /** The decision of `rotateImage(toValue)` from state rotation `rotation`:
      an explicit target (0 included) is taken when it is a whole number of
      quarter turns, otherwise the editor turns 90 degrees further. */
  function PlanRotation(rotation: int, toValue: Option<real>): (p: Plan)
    requires rotation % 90 == 0
    ensures p.accepted <==> toValue.Some? && IsQuarterTurns(toValue.value)
    ensures p.accepted ==> p.newValue as real == toValue.value
    ensures !p.accepted ==> p.newValue == rotation + 90
    ensures IsReachable(p.normalized)
    ensures (p.newValue - p.normalized) % 360 == 0
    ensures p.newValue >= 0 ==> IsNormalized(p.normalized)
    ensures p.newValue <= 0 ==> p.normalized <= 0
    ensures p.normalized == Normalize(p.newValue)
    // the animation heads for the normalised angle only for a truthy accepted target
    ensures p.animateTo == (if p.accepted && toValue.value != 0.0 then p.normalized else p.newValue)
  {
    var accepted := toValue.Some? && IsQuarterTurns(toValue.value);
    var newValue := if accepted then (toValue.value / 90.0).Floor * 90 else rotation + 90;
    assert accepted ==> newValue as real == toValue.value by {
      if accepted { QuarterTurnsExact(toValue.value); }
    }
    var normalized := Normalize(newValue);
    var truthyTarget := toValue.Some? && toValue.value != 0.0;
    Plan(accepted, newValue, normalized, if truthyTarget && accepted then normalized else newValue)
  }

  /** Default rotations from a normalised angle step through the cycle
      0, 90, 180, 270 and come back after four turns. */
  lemma DefaultRotationCycles(rotation: int)
    requires IsNormalized(rotation)
    ensures var r1 := PlanRotation(rotation, None).normalized;
      var r2 := PlanRotation(r1, None).normalized;
      var r3 := PlanRotation(r2, None).normalized;
      var r4 := PlanRotation(r3, None).normalized;
      && r1 == (rotation + 90) % 360
      && r2 == (rotation + 180) % 360
      && r3 == (rotation + 270) % 360
      && r4 == rotation
  {
  }

  /** A target of 0 is always accepted and lands on 0: `resetRotation`. */
  lemma ResetTargetIsZero(rotation: int)
    requires rotation % 90 == 0
    ensures PlanRotation(rotation, Some(0.0)).accepted
    ensures PlanRotation(rotation, Some(0.0)).normalized == 0
    ensures PlanRotation(rotation, Some(0.0)).animateTo == 0
  {
    assert IsQuarterTurns(0.0);
  }

  /** A target that is not a whole number of quarter turns is ignored. */
  lemma InvalidTargetIgnored(rotation: int)
    requires rotation % 90 == 0
    ensures !PlanRotation(rotation, Some(45.0)).accepted
    ensures PlanRotation(rotation, Some(45.0)).newValue == rotation + 90
  {
    assert (45.0 / 90.0).Floor == 0;
  }

  /** Negative targets keep their sign: JavaScript's remainder is truncating,
      so -90 normalises to -90, not 270. */
  lemma NegativeTargetKeepsSign(rotation: int)
    requires rotation % 90 == 0
    ensures PlanRotation(rotation, Some(-90.0)).normalized == -90
    ensures PlanRotation(rotation, Some(-450.0)).normalized == -90
  {
    assert IsQuarterTurns(-90.0);
    assert IsQuarterTurns(-450.0);
  }
}

=== FILE: square_cropper.dfy ===
/** The `SquareImageCropper` wrapper of ImageCropper.js. Source comparison,
    the source-change reset, image-size resolution, layout measurement, the
    readiness gate and `crop` are the same code as src/ImageCropper.ios.js
    and are the members of module CropperShell; only `reset` differs. */
module SquareCropper {
  import opened Types
  import CropperShell

  /** `reset`: release the stored crop (when the uri is non-empty) and clear
      the cropped uri and the error. Unlike the iOS wrapper it does not
      reset the inner cropper's zoom or rotation. */
  function Reset(w: CropperShell.Shell): (r: (CropperShell.Shell, Option<string>))
    requires CropperShell.Inv(w)
    ensures CropperShell.Inv(r.0)
    ensures r.0.croppedImageURI.None? && r.0.cropError.None?
    ensures r.0 == w.(croppedImageURI := None, cropError := None)
    ensures r.1.Some? <==> StringTruthy(w.croppedImageURI)
    ensures r.1.Some? ==> r.1 == w.croppedImageURI
  {
    var tag := w.croppedImageURI;
    (w.(croppedImageURI := None, cropError := None), if StringTruthy(tag) then tag else None)
  }

  /** The two wrappers' resets leave the same wrapper state and release the
      same stored image; they differ only in forwarding to the editor. */
  lemma ResetsAgreeOnWrapperState(w: CropperShell.Shell, animateZoom: Option<bool>, animateRotation: Option<bool>)
    requires CropperShell.Inv(w)
    ensures Reset(w).0 == CropperShell.Reset(w, animateZoom, animateRotation).0
    ensures Reset(w).1 == CropperShell.Reset(w, animateZoom, animateRotation).1
  {
  }
}

=== FILE: types.dfy ===
/** Shapes shared by every component of the cropper: the image and viewport
    geometry records, the crop data handed to the native cropper, and the
    image source a wrapper receives as a prop. Also the two JavaScript
    truthiness rules the components lean on, written out explicitly. */
module Types {

  /** A value that may be `null`/`undefined` in the program. */
  datatype Option<+T> = None | Some(value: T)

  /** A width/height pair, in image pixels or layout points. */
  datatype Size = Size(width: real, height: real)

  /** A scroll or pan displacement. */
  datatype Offset = Offset(x: real, y: real)

  /** The crop rectangle in source-image pixels, plus the rotation (degrees)
      the resizer applies afterwards. */
  datatype CropData = CropData(offset: Offset, size: Size, rotation: int)

  /** An image prop. `ref` stands for the object's identity: two props are
      the same JavaScript object (`===`) exactly when they are equal values,
      reference tag included. The uri and declared dimensions are optional. */
  datatype ImageSource = ImageSource(ref: nat, uri: Option<string>, width: Option<real>, height: Option<real>)

  predicate IsPositive(s: Size) {
    s.width > 0.0 && s.height > 0.0
  }

  /** JavaScript truthiness of an optional number: missing and 0 are falsy. */
  predicate NumberTruthy(n: Option<real>) {
    n.Some? && n.value != 0.0
  }

  /** JavaScript truthiness of an optional string: missing and "" are falsy. */
  predicate StringTruthy(s: Option<string>) {
    s.Some? && s.value != ""
  }

  function Min(a: real, b: real): real {
    if a <= b then a else b
  }

  function Max(a: real, b: real): real {
    if a >= b then a else b
  }

  function Abs(a: real): real {
    if a < 0.0 then -a else a
  }
}
